=== FILE: README.md ===
# evernote-dump: note and attachment core, in Dafny

evernote-dump turns an Evernote export (`.enex`) into a folder of Markdown
files. A parser feeds each note's title, body markup, dates, tags and
attributes into a `Note`. It feeds each embedded resource into an
`Attachment`: the declared file name, the MIME type, base64 lines and
attributes.

This project models what `source/evernote_dump/note.py` does with those
values once they are collected:

- **Checkboxes** rewrites Evernote's four to-do tags into `-<ignore> [ ] `
  and `-<ignore> [x] ` and deletes the closing tag. It is a fixed sequence of
  five `str.replace` passes.
- **MediaTags** finds every `<en-media …/>` tag (the regular expression
  `<en-media[^>]*\/>` under `re.findall`). For each tag it takes the first run
  of 32 ASCII letters and digits, finds the first attachment whose original
  fingerprint equals that run, and replaces the tag with
  `\n` + (`!` if the tag mentions `image`) + `[f](media/f)`. The two ways it
  raises are modelled as errors: no matching attachment (always the error
  when the note has no attachments, since the lookup's filter is never
  evaluated then), and no token.
- **NoteNaming** gives a title without any letter or digit the fallback
  `_<uuid>`. It places a note with attachments in a sub-directory named after
  its title, and names the Markdown file `url_safe_string(title[:128]) + ".md"`
  after the collision check.
- **NoteMarkdown** assembles the document. It is the rendered body (title
  heading, then the rewritten markup). The attachment section follows, then
  the tag section only when there are tags, then the note attributes.
  `Attachment.get_attributes` writes one block per attachment.
- **AttachmentNaming** splits the declared name at its last dot. A name without
  a dot takes the MIME type's extension, with `jpe` normalised to `jpg`. The
  base is the original base (when kept and non-empty) or a date stamp. Spaces
  become `_`, and the collision check runs in `<path>/<title>/media`.
- **Fragments** and **Base64** cover the payload. Each base64 line is kept
  without its trailing line breaks. The lines are joined and decoded with the
  standard alphabet and `=` padding of section 4 of RFC 4648.

**Records** declares the data model (`Note`, `Attachment`, `Attr`, `Stamp`).
**Outcomes** holds `Option`/`Result`, and **Text** states the Python string
operations over `seq<char>`: `str.replace`, `rstrip`, slicing and `join`.

Every service the core calls but does not define is a field of `Records.Env`,
an uninterpreted function about which nothing is assumed:

- `url_safe_string`, `check_for_double` and `make_dir_check`;
- `os.path.join`;
- `str.isalpha`/`isdigit`;
- `html2text`;
- `mimetypes.guess_extension`;
- `strftime`.

A three-part `os.path.join(a, b, c)` is two nested two-part joins.

Python's `str.replace` scans left to right, replaces non-overlapping
occurrences and never rescans its own output. `Text.Replace` is defined that
way. The lemmas that describe the rewrites split the markup into pieces: plain
text, to-do tags, or media tags. Each lemma then proves what the whole sequence
of passes produces from those pieces.

The note's file name is chosen when the parser sets the title. At that point
no attachment has been added yet, so the collision check always looks in the
export directory, as the comment at line 105 of `note.py` admits.
`NoteNaming.NamedBeforeAttachments` states this.

The code strips a set of characters rather than the final `.` and
extension. `AttachmentNaming.SplitAsWritten` and
`AttachmentNaming.CreateFilenameAsWritten` follow the code as written;
`AttachmentNaming.SplitName` and `AttachmentNaming.CreateFilename` are the
corrected definitions with the exact split: see Findings.

## Model

| member | source | states |
|---|---|---|
| Text.Take | source/evernote_dump/note.py:107 | `s[:n]` is a prefix of `s` of length `min(n, len(s))` |
| Text.RStrip | source/evernote_dump/note.py:237 | `rstrip(chars)` keeps the longest prefix that does not end in a character of the set; everything it removes is in the set |
| Text.Replace | source/evernote_dump/note.py:76 | definition; its meaning is stated by Text.ReplaceAbsent, Text.ReplaceLength, Text.ReplaceSkip and Text.ReplaceCharPointwise |
| Text.ReplaceAbsent | source/evernote_dump/note.py:75-76 | `str.replace` of a string that does not occur leaves the text unchanged |
| Text.ReplaceCharPointwise | source/evernote_dump/note.py:252 | replacing one character by another changes exactly the positions holding it and keeps the length |
| Checkboxes.ConvertCheckboxes | source/evernote_dump/note.py:65-76 | definition; its meaning is stated by Checkboxes.ConvertUnchangedIff, Checkboxes.ConvertPieces and Checkboxes.ClosingTagCanReappear |
| Checkboxes.ConvertUnchangedIff | source/evernote_dump/note.py:62-76 | the checkbox passes leave the markup unchanged if and only if none of the five literals occurs in it |
| Checkboxes.ConvertPieces | source/evernote_dump/note.py:62-76 | on text interleaved with to-do tags, each unchecked tag becomes `-<ignore> [ ] `, each checked tag `-<ignore> [x] `, each closing tag disappears and the text stays in place |
| Checkboxes.ClosingTagCanReappear | source/evernote_dump/note.py:71-76 | the deletion pass runs once, so `<</en-todo>/en-todo>` comes out as a closing tag |
| MediaTags.MatchAt | source/evernote_dump/note.py:80 | a match at the start is a whole `<en-media[^>]*\/>`, and when none is reported no prefix matches |
| MediaTags.FindAll | source/evernote_dump/note.py:80 | every string `re.findall` returns is a whole media tag that occurs in the markup, and it returns nothing exactly when the pattern matches at no position |
| MediaTags.FindAllLeftmost | source/evernote_dump/note.py:80 | when the leftmost position where the pattern matches is `p`, `re.findall` returns that match first and continues with the matches of the text after it, so the matches come in order, do not overlap, and none starts in the text skipped before them |
| MediaTags.FindAllDrop | source/evernote_dump/note.py:80 | text in which no match starts before position `k` yields the same matches as the text from `k` |
| MediaTags.FindAllEmptyIff | source/evernote_dump/note.py:80 | `re.findall` returns nothing exactly when no stretch of the markup is a whole media tag |
| MediaTags.FirstRun | source/evernote_dump/note.py:83 | the token is the leftmost run of 32 ASCII letters and digits, and none is reported only when no run exists |
| MediaTags.FindByHash | source/evernote_dump/note.py:84 | `next(...)` picks the first attachment in registration order whose original fingerprint is the token, and fails only when none has it |
| MediaTags.Resolve | source/evernote_dump/note.py:83-86 | definition; its meaning is stated by MediaTags.ResolveMeaning |
| MediaTags.Placeholder | source/evernote_dump/note.py:85-86 | definition; its meaning is stated by MediaTags.ResolveMeaning |
| MediaTags.UntokenedTagWithoutAttachments | source/evernote_dump/note.py:83-84 | a tag without a token in a note without attachments fails with NoAttachment and no token, not with NoHashToken |
| MediaTags.ResolveMeaning | source/evernote_dump/note.py:83-86 | in a note without attachments every tag fails with NoAttachment, without a token when the tag has none; otherwise a tag fails with NoHashToken exactly when it has no token, and else resolves to the placeholder of the first attachment with that fingerprint, or fails naming the unmatched token |
| MediaTags.ApplyMatches | source/evernote_dump/note.py:82-87 | definition; its meaning is stated by MediaTags.ApplyMatchesFails and MediaTags.RewriteChunks |
| MediaTags.ApplyMatchesFails | source/evernote_dump/note.py:82-87 | the loop fails exactly when some matched tag fails to resolve, and reports the first such tag's error |
| MediaTags.RewriteMedia | source/evernote_dump/note.py:78-87 | definition; its meaning is stated by MediaTags.RewriteMediaFails, MediaTags.RewriteChunks and MediaTags.NoMediaUnchanged |
| MediaTags.RewriteMediaFails | source/evernote_dump/note.py:78-87 | the media rewrite fails exactly when a tag found in the markup cannot be resolved |
| MediaTags.RewriteChunks | source/evernote_dump/note.py:78-87 | on markup made of text and media tags, every tag is replaced by the link to its attachment and all other text is kept in place |
| MediaTags.NoMediaUnchanged | source/evernote_dump/note.py:78-87 | markup in which no `<en-media` can start passes through unchanged and never fails |
| NoteNaming.NamingTitle | source/evernote_dump/note.py:101-104 | definition; its meaning is stated by NoteNaming.NamingTitleSettles and NoteNaming.BlankTitlesUseIdentifier |
| NoteNaming.NamingTitleSettles | source/evernote_dump/note.py:101-104 | a title is replaced only when it has no letter or digit; the resulting title always has one, so the fallback is applied at most once |
| NoteNaming.SeparateDir | source/evernote_dump/note.py:98-99 | definition; its meaning is stated by NoteNaming.MarkdownBesideMedia and NoteNaming.NamedBeforeAttachments |
| NoteNaming.CreateFilename | source/evernote_dump/note.py:100-107 | definition; its meaning is stated by NoteNaming.TitlesAgreeingOnPrefix, NoteNaming.BlankTitlesUseIdentifier and NoteNaming.NamedBeforeAttachments |
| NoteNaming.TitlesAgreeingOnPrefix | source/evernote_dump/note.py:106-107 | for a note named before any attachment, the name depends on a usable title only through its first 128 characters, so only the collision check tells two such titles apart |
| NoteNaming.BlankTitlesUseIdentifier | source/evernote_dump/note.py:101-107 | for titles without a letter or digit the name depends only on the note's identifier |
| NoteNaming.SetTitle | source/evernote_dump/note.py:169-171 | setting the title stores the fallback-adjusted title and a file name, and changes no other field of the note |
| NoteNaming.NamedBeforeAttachments | source/evernote_dump/note.py:98-107 | a note named before any attachment is added has its name checked in the export directory itself |
| NoteNaming.MarkdownBesideMedia | source/evernote_dump/note.py:98-99 | for a note with attachments, the Markdown directory is the parent of the attachments' `media` directory, so `media/<file>` links resolve |
| NoteMarkdown.ReadAttrLinesRoundTrip | source/evernote_dump/note.py:131-133 | lines written as `\n>name: value  ` read back to the same attributes in the same order, given names without `:` and no line breaks |
| NoteMarkdown.AttrLinesAppend | source/evernote_dump/note.py:131-133 | attribute lines are written in capture order: the lines of a concatenation are the concatenation of the lines |
| NoteMarkdown.AttachmentBlock | source/evernote_dump/note.py:286-294 | definition; its meaning is stated by NoteMarkdown.AttachmentBlockReadBack |
| NoteMarkdown.AttachmentBlockReadBack | source/evernote_dump/note.py:286-294 | a block is the bare link when there are no attributes; otherwise its metadata lines read back to the fingerprint followed by the attributes, and it ends in a line break |
| NoteMarkdown.AttachmentsSection | source/evernote_dump/note.py:118-124 | definition; its meaning is stated by NoteMarkdown.BlocksAppend and NoteMarkdown.AttachmentBlockReadBack |
| NoteMarkdown.BlocksAppend | source/evernote_dump/note.py:118-124 | attachment blocks appear in registration order |
| NoteMarkdown.Braced | source/evernote_dump/note.py:138 | every tag is wrapped in braces, one entry per tag, in order |
| NoteMarkdown.TagsSection | source/evernote_dump/note.py:135-140 | definition; its meaning is stated by NoteMarkdown.ReadTagsRoundTrip and NoteMarkdown.TagLineAppend |
| NoteMarkdown.ReadTagsRoundTrip | source/evernote_dump/note.py:135-140 | the tag line reads back to the note's tags when no tag contains `}` |
| NoteMarkdown.TagLineAppend | source/evernote_dump/note.py:138 | adding a tag extends the line by two spaces and the braced tag |
| NoteMarkdown.DateLineSpelling | source/evernote_dump/note.py:129-130 | the two date lines are spelled `\n>Created Date: <time>  ` and `\n>Last Evernote Update Date: <time>  ` |
| NoteMarkdown.NoteAttrSection | source/evernote_dump/note.py:126-133 | definition; its meaning is stated by NoteMarkdown.NoteAttrReadBack and NoteMarkdown.DateLineSpelling |
| NoteMarkdown.NoteAttrReadBack | source/evernote_dump/note.py:126-133 | below its heading, the attribute section reads back to the creation date, the update date and then the note's attributes in capture order |
| NoteMarkdown.CleanHtml | source/evernote_dump/note.py:55-60 | cleaning fails exactly when the media rewrite fails, with the same error |
| NoteMarkdown.Metadata | source/evernote_dump/note.py:111-114 | definition; its meaning is stated by NoteMarkdown.BareMetadata, NoteMarkdown.TodoNoteMarkdown and the section lemmas above |
| NoteMarkdown.CreateMarkdown | source/evernote_dump/note.py:109-116 | the document fails exactly when the media rewrite fails; otherwise it is the rendered body followed by the metadata |
| NoteMarkdown.BareMetadata | source/evernote_dump/note.py:118-133 | a note without attachments, tags or attributes ends in the heading and the two date lines alone |
| NoteMarkdown.TodoNoteMarkdown | source/evernote_dump/note.py:55-76 | for markup of text and to-do tags, the document is the rendering of the title heading followed by the intended checkbox text, then the metadata |
| NoteMarkdown.MediaNoteHtml | source/evernote_dump/note.py:55-87 | for markup of text and resolvable media tags, the cleaned markup is the title heading followed by the checkbox conversion of the markup with every tag replaced by its link |
| AttachmentNaming.LastIndexOf | source/evernote_dump/note.py:235-236 | the position found holds the character, and no later position does |
| AttachmentNaming.SplitRoundTrip | source/evernote_dump/note.py:234-237 | the intended base, a dot and the extension give back the declared name, and the extension holds no dot |
| AttachmentNaming.BaseAsWritten | source/evernote_dump/note.py:237 | definition; its meaning is stated by AttachmentNaming.BaseAsWrittenVersusBase and AttachmentNaming.ShopPngLosesLetter |
| AttachmentNaming.BaseAsWrittenVersusBase | source/evernote_dump/note.py:237 | `rstrip` yields a prefix of the intended base, equal to it exactly when that base is empty or ends outside the stripped set |
| AttachmentNaming.ShopPngLosesLetter | source/evernote_dump/note.py:237 | as written, `shop.png` gives the base `sho` |
| AttachmentNaming.JpgJpgHasEmptyBase | source/evernote_dump/note.py:234-237 | as written, `jpg.jpg` gives an empty base, where the intended base is `jpg` |
| AttachmentNaming.MimeExtension | source/evernote_dump/note.py:240-242 | without a dot the extension is the MIME guess without its leading dot, `jpe` becomes `jpg`, and the result is an error exactly when the type is unknown |
| AttachmentNaming.SplitAsWritten | source/evernote_dump/note.py:234-242 | as written, a dotted name keeps the text after its last dot as extension, but its base is only a prefix of the intended base: what is cut off is dots and characters of the extension, and a non-empty base ends in some other character; an undotted name is the base, with the MIME extension or the error |
| AttachmentNaming.SplitName | source/evernote_dump/note.py:234-242 | corrected (the intended split, not line 237 as written): a dotted name splits exactly into base, dot and extension; an undotted name keeps the whole name as base |
| AttachmentNaming.Underscored | source/evernote_dump/note.py:252 | definition; its meaning is stated by AttachmentNaming.UnderscoredMeaning and AttachmentNaming.UnderscoredAppend |
| AttachmentNaming.UnderscoredMeaning | source/evernote_dump/note.py:252 | replacing spaces keeps the length, turns every space into `_`, and leaves no space |
| AttachmentNaming.UnderscoredAppend | source/evernote_dump/note.py:252 | the space replacement acts on each part of a concatenation separately |
| AttachmentNaming.Stem | source/evernote_dump/note.py:244-249 | definition; its meaning is stated by AttachmentNaming.Candidate, AttachmentNaming.KeptName and AttachmentNaming.JpgJpgIsStamped |
| AttachmentNaming.Candidate | source/evernote_dump/note.py:244-252 | the name passed to the collision check has no space and is the stem, a dot and the extension, each with spaces turned into `_` |
| AttachmentNaming.KeptName | source/evernote_dump/note.py:244-252 | with names kept and a non-empty base, the candidate is the sanitised first 128 characters of the base, a dot and the extension |
| AttachmentNaming.CreateFilename | source/evernote_dump/note.py:232-256 | corrected (the intended split, not line 237 as written): naming fails only for an undotted name whose MIME type is unknown; otherwise the name is the collision-checked candidate in `<path>/<title>/media` |
| AttachmentNaming.CreateFilenameAsWritten | source/evernote_dump/note.py:232-256 | the same, with the base produced by `rstrip` |
| AttachmentNaming.AsWrittenAgreesUnlessOverStripped | source/evernote_dump/note.py:237 | the code as written and the corrected one give the same name whenever the intended base is empty or ends in a character outside the stripped set |
| AttachmentNaming.ShopPngSplitsAsWritten | source/evernote_dump/note.py:234-237 | as written, `shop.png` splits into `sho` and `png` |
| AttachmentNaming.ShopPngSplits | source/evernote_dump/note.py:234-237 | corrected, `shop.png` splits into `shop` and `png` |
| AttachmentNaming.ShopPngIsRenamed | source/evernote_dump/note.py:232-256 | as written, keeping original names turns `shop.png` into a name built from `sho` |
| AttachmentNaming.JpgJpgSplitsAsWritten | source/evernote_dump/note.py:234-237 | as written, `jpg.jpg` splits into an empty base and `jpg` |
| AttachmentNaming.JpgJpgIsStamped | source/evernote_dump/note.py:232-256 | as written, keeping original names does not keep `jpg.jpg`: the creation stamp names the file |
| AttachmentNaming.ShopPngIsKept | source/evernote_dump/note.py:232-256 | corrected, keeping original names keeps `shop` |
| Base64.AlphabetBijection | source/evernote_dump/note.py:318 | the 64 alphabet characters and the 64 six-bit values correspond one to one, and the pad is not among them |
| Base64.Decode | source/evernote_dump/note.py:318 | definition; its meaning is stated by Base64.RoundTrip and Base64.DecodeLength |
| Base64.RoundTrip | source/evernote_dump/note.py:318 | decoding an encoding gives back the bytes |
| Base64.EncodeLength | source/evernote_dump/note.py:318 | every three bytes, or fewer at the end, take four characters |
| Base64.DecodeLength | source/evernote_dump/note.py:318 | only whole four-character quanta decode, and four characters never yield more than three bytes |
| Base64.EncodingCharacters | source/evernote_dump/note.py:318 | an encoding holds only alphabet characters and pads |
| Fragments.StreamIn | source/evernote_dump/note.py:312-313 | a streamed line is appended after the existing fragments as a prefix of itself that does not end in a line break, and everything removed is line breaks |
| Fragments.DecodePayload | source/evernote_dump/note.py:315-321 | fragments that join to the encoding of some bytes decode to exactly those bytes and empty the buffer; a joined text that is not whole four-character quanta is rejected; a success yields at most three bytes per four characters |
| Fragments.StreamAll | source/evernote_dump/note.py:312-313 | streaming lines keeps the existing fragments in front and appends each line in order without its trailing line breaks |
| Fragments.StripTerminator | source/evernote_dump/note.py:313 | a line without a line break of its own, with one appended, is kept whole |
| Fragments.StreamAllRestores | source/evernote_dump/note.py:312-313 | streaming lines without inner line breaks, each ended by one, restores the lines exactly |
| Fragments.StreamedPayloadDecodes | source/evernote_dump/note.py:312-321 | however an encoding is broken into lines, streaming them and decoding gives back the bytes and empties the buffer |

## Left out

- `source/export.py` and the parser that drives these classes are not part of this model. They are the script and the XML handling that call the core.
- Writing files and timestamps is not modelled, because it is filesystem I/O. This covers `Note.create_file`, `Attachment.create_file` and `os.utime`.
- `url_safe_string`, `check_for_double` and `make_dir_check` are uninterpreted. Their guarantees (an allow-listed alphabet, a collision-free name, an existing directory) are not assumed.
- `check_for_double` is one fixed function of the directory and the candidate name. The directory contents it reads are not modelled, so two calls with the same arguments give the same name.
- `Attachment.resize_image` is not modelled, because it is image processing in a foreign library.
- `create_original_file_hash` and `create_hash` are not modelled, because they compute MD5. Both fingerprints are plain fields of `Records.Attachment`.
- `html2text` rendering is the uninterpreted `Env.render`.
- Date parsing and formatting (`strptime`, `strftime`) are uninterpreted. The `encode('utf-8')`/`decode('utf-8')` pair around the markup is the identity on text.
- `str.isalpha`/`isdigit` are the uninterpreted `Env.isAlnum`, because Unicode character classes are not modelled.
- The setters, getters and appenders (`add_attachment`, `add_found_attribute`, `append_html`, `append_tag`, `set_*`, `get_*`) are left out. They store or return one field of `Note` or `Attachment` and are the records' fields and constructors here.
- `append_to_notemd`, `new_attachment` and `get_extention` are not modelled, because nothing calls them. `append_to_notemd` uses an attribute that is never set, and `new_attachment` passes a file name where a note is expected.
- The `NameError` fallback in `Attachment.finalize` is not modelled. The retry `create_filename(True)` uses every name the first call used, so any `NameError` it could catch is raised again by the retry.
- The order of the attachment's finalize steps (name, decode, hash, write) is not modelled as one function. Each step is modelled on its own.
- Base64.Decode: decodes strictly per section 4 of RFC 4648 and rejects input that Python's lenient `b64decode` accepts: characters outside the alphabet (such as a `\r` left by CRLF line endings), which Python discards, and data after the padding. Like Python, it does not check that unused bits in the last quantum are zero.
- Fragments.DecodePayload: every malformed payload is one error. Python's `b64decode` raises `binascii.Error`, which the `except TypeError` does not catch, so the error propagates and `SystemExit` is not raised; the model does not tell the two apart.

## Findings

| source | as written | input that shows it | evidently intended | confidence | as-written member | corrected member |
|---|---|---|---|---|---|---|
| source/evernote_dump/note.py:237 | `rstrip('.' + ext)` removes every trailing character that is a dot or a character of the extension, so it can eat into the base name | the declared name `shop.png` with original names kept gives the base `sho` and the file `sho.png`; `jpg.jpg` gives an empty base and falls back to the date stamp | remove exactly the final `.` + extension, giving `shop` and `shop.png` | high, not executed | AttachmentNaming.CreateFilenameAsWritten (counterexamples AttachmentNaming.ShopPngIsRenamed, AttachmentNaming.JpgJpgIsStamped) | AttachmentNaming.CreateFilename (AttachmentNaming.SplitRoundTrip, AttachmentNaming.ShopPngIsKept) |

=== FILE: attachment_naming.dfy ===
/** Choice of an attachment's file name (`Attachment.create_filename`). */
module AttachmentNaming {
  import opened Outcomes
  import opened Text
  import opened Records

  /** Limit applied to the original base name before sanitising. */
  const MaxBaseLength := 128

  /** `mimetypes.guess_extension(...)` returned None, so slicing it raised. */
  datatype NameError = UnknownMimeType(mime: string)

  /** Base name and extension, before the stem is chosen. */
  datatype Split = Split(base: string, ext: string)

  /** Position of the last `c` in `s`. */
  function LastIndexOf(s: string, c: char): (r: Option<nat>)
    ensures r.Some? ==> r.value < |s| && s[r.value] == c
    ensures r.Some? ==> forall i :: r.value < i < |s| ==> s[i] != c
    ensures r.None? ==> forall i :: 0 <= i < |s| ==> s[i] != c
    decreases |s|
  {
    if |s| == 0 then None
    else if s[|s| - 1] == c then Some(|s| - 1)
    else LastIndexOf(s[..|s| - 1], c)
  }

  /** A dot at `k` with no dot after it is the last dot. */
  lemma LastDotAt(s: string, k: nat)
    requires k < |s| && s[k] == '.'
    requires forall i :: k < i < |s| ==> s[i] != '.'
    ensures LastIndexOf(s, '.') == Some(k)
  {
  }

  /** `name.split('.')[-1]`: the text after the last dot. */
  function ExtensionOf(name: string): string
    requires '.' in name
  {
    var d := LastIndexOf(name, '.');
    assert d.Some?;
    name[d.value + 1..]
  }

  /** `name.rstrip('.' + ext)`, as `note.py` writes it: every trailing
      character that is a dot or occurs in `ext` is removed. */
  function BaseAsWritten(name: string, ext: string): string {
    RStrip(name, StripSet(ext))
  }

  /** The characters `rstrip('.' + ext)` removes. */
  function StripSet(ext: string): set<char> {
    {'.'} + set c | c in ext
  }

  /** Every character of `.` + `ext` is in the strip set. */
  lemma SuffixInStripSet(ext: string)
    ensures forall i :: 0 <= i < |"." + ext| ==> ("." + ext)[i] in StripSet(ext)
  {
    var tail := "." + ext;
    forall i | 0 <= i < |tail|
      ensures tail[i] in StripSet(ext)
    {
      if i > 0 {
        assert tail[i] == ext[i - 1];
      }
    }
  }

  /** The evidently intended base: the name without its final `.` + extension. */
  function Base(name: string): string
    requires '.' in name
  {
    var d := LastIndexOf(name, '.');
    assert d.Some?;
    name[..d.value]
  }

  /** The declared name is its base, a dot and its extension, and the
      extension contains no dot. */
  lemma SplitRoundTrip(name: string)
    requires '.' in name
    ensures Base(name) + "." + ExtensionOf(name) == name
    ensures '.' !in ExtensionOf(name)
  {
    var d := LastIndexOf(name, '.').value;
    assert name == name[..d] + "." + name[d + 1..];
    var ext := name[d + 1..];
    forall i | 0 <= i < |ext|
      ensures ext[i] != '.'
    {
      assert ext[i] == name[d + 1 + i];
    }
  }

  /** `rstrip` removes the extension and then keeps eating the base for as
      long as its last character is a dot or a character of the extension. The
      two agree exactly when the intended base is empty or ends in some
      other character. */
  lemma BaseAsWrittenVersusBase(name: string)
    requires '.' in name
    ensures BaseAsWritten(name, ExtensionOf(name)) <= Base(name)
    ensures BaseAsWritten(name, ExtensionOf(name)) == Base(name) <==>
            |Base(name)| == 0 || Base(name)[|Base(name)| - 1] !in StripSet(ExtensionOf(name))
  {
    var base, ext := Base(name), ExtensionOf(name);
    var cs := StripSet(ext);
    SplitRoundTrip(name);
    SuffixInStripSet(ext);
    assert name == base + ("." + ext);
    RStripAppend(base, "." + ext, cs);
    if |base| > 0 && base[|base| - 1] in cs {
      assert |RStrip(base, cs)| < |base|;
    }
  }

  /** The stripped base of `shop.png` is `sho`: a letter of the name is lost
      because `p` occurs in the extension. */
  lemma ShopPngLosesLetter()
    ensures ExtensionOf("shop.png") == "png"
    ensures BaseAsWritten("shop.png", "png") == "sho"
    ensures Base("shop.png") == "shop"
  {
    var name := "shop.png";
    LastDotAt(name, 4);
    var cs := StripSet("png");
    assert 'o' !in cs && 'p' in cs && 'n' in cs && 'g' in cs;
    RStripUnique(name, cs, "sho");
  }

  /** The stripped base of `jpg.jpg` is empty, while the intended base is
      `jpg`. */
  lemma JpgJpgHasEmptyBase()
    ensures ExtensionOf("jpg.jpg") == "jpg"
    ensures BaseAsWritten("jpg.jpg", "jpg") == ""
    ensures Base("jpg.jpg") == "jpg"
  {
    var name := "jpg.jpg";
    LastDotAt(name, 3);
    var cs := StripSet("jpg");
    assert 'j' in cs && 'p' in cs && 'g' in cs;
    RStripUnique(name, cs, "");
  }

  /** `guess_extension(mime, False)[1:]`, with `jpe` normalised to `jpg`. */
  function MimeExtension(mime: string, env: Env): (r: Result<string, NameError>)
    ensures env.guessExtension(mime).None? <==> r == Err(UnknownMimeType(mime))
    ensures r.Err? <==> env.guessExtension(mime).None?
    ensures r.Ok? ==> r.value != "jpe"
    ensures r.Ok? && r.value != "jpg" ==> r.value == Drop(env.guessExtension(mime).value, 1)
    ensures r.Ok? && r.value == "jpg" ==> Drop(env.guessExtension(mime).value, 1) in {"jpg", "jpe"}
  {
    match env.guessExtension(mime)
    case None => Err(UnknownMimeType(mime))
    case Some(g) =>
      var ext := Drop(g, 1);
      if ext == "jpe" then Ok("jpg") else Ok(ext)
  }

  /** Base and extension with the extension split off by `rstrip`, as written.
      For a dotted name the extension is still the text after the last dot,
      but the base is only some prefix of the intended base: what was cut off
      consists of dots and characters of the extension, and a non-empty base
      ends in some other character. */
  function SplitAsWritten(name: string, mime: string, env: Env): (r: Result<Split, NameError>)
    ensures '.' in name ==> r.Ok? && '.' !in r.value.ext && Base(name) + "." + r.value.ext == name
    ensures '.' in name ==> r.Ok? && r.value.base <= Base(name)
    ensures '.' in name && r.Ok? ==>
              forall i :: |r.value.base| <= i < |Base(name)| ==> Base(name)[i] in StripSet(r.value.ext)
    ensures '.' in name && r.Ok? && |r.value.base| > 0 ==>
              r.value.base[|r.value.base| - 1] !in StripSet(r.value.ext)
    ensures '.' !in name ==> r.Ok? == MimeExtension(mime, env).Ok?
    ensures '.' !in name && r.Ok? ==> r.value == Split(name, MimeExtension(mime, env).value)
  {
    if '.' in name then
      var ext := ExtensionOf(name);
      SplitRoundTrip(name);
      BaseAsWrittenVersusBase(name);
      Ok(Split(BaseAsWritten(name, ext), ext))
    else
      match MimeExtension(mime, env)
      case Err(e) => Err(e)
      case Ok(ext) => Ok(Split(name, ext))
  }

  /** Base and extension with the extension split off exactly. */
  function SplitName(name: string, mime: string, env: Env): (r: Result<Split, NameError>)
    ensures '.' in name ==> r.Ok? && r.value.base + "." + r.value.ext == name && '.' !in r.value.ext
    ensures '.' !in name ==> r.Ok? == MimeExtension(mime, env).Ok?
    ensures '.' !in name && r.Ok? ==> r.value == Split(name, MimeExtension(mime, env).value)
  {
    if '.' in name then
      SplitRoundTrip(name);
      Ok(Split(Base(name), ExtensionOf(name)))
    else
      match MimeExtension(mime, env)
      case Err(e) => Err(e)
      case Ok(ext) => Ok(Split(name, ext))
  }

  /** `s.replace(" ", "_")` */
  function Underscored(s: string): string {
    Replace(s, " ", "_")
  }

  /** Spaces become underscores, and nothing else changes. */
  lemma UnderscoredMeaning(s: string)
    ensures |Underscored(s)| == |s|
    ensures forall i :: 0 <= i < |s| ==> Underscored(s)[i] == if s[i] == ' ' then '_' else s[i]
    ensures ' ' !in Underscored(s)
  {
    ReplaceCharPointwise(s, ' ', '_');
  }

  lemma UnderscoredAppend(a: string, b: string)
    ensures Underscored(a + b) == Underscored(a) + Underscored(b)
  {
    UnderscoredMeaning(a);
    UnderscoredMeaning(b);
    UnderscoredMeaning(a + b);
  }

  /** The stem before the dot: the sanitised, truncated original base when
      names are kept and the base is non-empty, else the creation stamp. */
  function Stem(split: Split, keep: bool, created: Stamp, env: Env): string {
    if keep && |split.base| > 0 then env.urlSafe(Take(split.base, MaxBaseLength))
    else env.fileStamp(created)
  }

  /** The name handed to the collision check. */
  function Candidate(split: Split, keep: bool, created: Stamp, env: Env): (r: string)
    ensures ' ' !in r
    ensures r == Underscored(Stem(split, keep, created, env)) + "." + Underscored(split.ext)
    ensures |r| == |Stem(split, keep, created, env)| + 1 + |split.ext|
  {
    var stem := Stem(split, keep, created, env);
    UnderscoredAppend(stem + ".", split.ext);
    UnderscoredAppend(stem, ".");
    UnderscoredMeaning(stem + "." + split.ext);
    assert Underscored(".") == "." by { UnderscoredMeaning("."); }
    Underscored(stem + "." + split.ext)
  }

  /** Directory the attachment is written to: `<path>/<note title>/media`. */
  function MediaDir(path: string, noteTitle: string, env: Env): string {
    env.join(env.join(path, noteTitle), MediaPath)
  }

  /** `Attachment.create_filename`, with the evidently intended base. */
  function CreateFilename(name: string, mime: string, created: Stamp, path: string,
                          noteTitle: string, keep: bool, env: Env): (r: Result<string, NameError>)
    ensures r.Err? <==> '.' !in name && env.guessExtension(mime).None?
    ensures r.Ok? ==> (exists split :: SplitName(name, mime, env) == Ok(split)
                         && r.value == env.checkForDouble(MediaDir(path, noteTitle, env),
                                                          Candidate(split, keep, created, env)))
  {
    match SplitName(name, mime, env)
    case Err(e) => Err(e)
    case Ok(split) =>
      Ok(env.checkForDouble(MediaDir(path, noteTitle, env), Candidate(split, keep, created, env)))
  }

  /** `Attachment.create_filename` as written, with `rstrip`. */
  function CreateFilenameAsWritten(name: string, mime: string, created: Stamp, path: string,
                                   noteTitle: string, keep: bool, env: Env): (r: Result<string, NameError>)
    ensures r.Err? <==> '.' !in name && env.guessExtension(mime).None?
    ensures r.Ok? ==> (exists split :: SplitAsWritten(name, mime, env) == Ok(split)
                         && r.value == env.checkForDouble(MediaDir(path, noteTitle, env),
                                                          Candidate(split, keep, created, env)))
  {
    match SplitAsWritten(name, mime, env)
    case Err(e) => Err(e)
    case Ok(split) =>
      Ok(env.checkForDouble(MediaDir(path, noteTitle, env), Candidate(split, keep, created, env)))
  }

  /** The two agree unless the declared base ends in a character of the extension or a dot. */
  lemma AsWrittenAgreesUnlessOverStripped(name: string, mime: string, created: Stamp, path: string,
                                          noteTitle: string, keep: bool, env: Env)
    requires '.' in name ==>
               |Base(name)| == 0 || Base(name)[|Base(name)| - 1] !in StripSet(ExtensionOf(name))
    ensures CreateFilenameAsWritten(name, mime, created, path, noteTitle, keep, env)
            == CreateFilename(name, mime, created, path, noteTitle, keep, env)
  {
    if '.' in name {
      BaseAsWrittenVersusBase(name);
    }
  }

  /** With `keep_file_names` set, the file name is the sanitised base, a dot and the extension. */
  lemma KeptName(split: Split, created: Stamp, env: Env)
    requires |split.base| > 0 && ' ' !in split.ext
    ensures Candidate(split, true, created, env) == Underscored(env.urlSafe(Take(split.base, MaxBaseLength))) + "." + split.ext
  {
    UnderscoredMeaning(split.ext);
    assert Underscored(split.ext) == split.ext;
  }

  /** A short base is kept whole. */
  lemma ShortBaseKept(split: Split, created: Stamp, env: Env)
    requires 0 < |split.base| <= MaxBaseLength && ' ' !in split.ext
    ensures Candidate(split, true, created, env) == Underscored(env.urlSafe(split.base)) + "." + split.ext
  {
    KeptName(split, created, env);
    assert Take(split.base, MaxBaseLength) == split.base;
  }

  /** As written, `shop.png` splits into `sho` and `png`. */
  lemma ShopPngSplitsAsWritten(mime: string, env: Env)
    ensures SplitAsWritten("shop.png", mime, env) == Ok(Split("sho", "png"))
  {
    var name := "shop.png";
    assert '.' in name by { assert name[4] == '.'; }
    ShopPngLosesLetter();
  }

  /** Corrected, `shop.png` splits into `shop` and `png`. */
  lemma ShopPngSplits(mime: string, env: Env)
    ensures SplitName("shop.png", mime, env) == Ok(Split("shop", "png"))
  {
    var name := "shop.png";
    assert '.' in name by { assert name[4] == '.'; }
    ShopPngLosesLetter();
  }

  lemma PngShape(u: string)
    ensures ' ' !in "png"
    ensures u + "." + "png" == u + ".png"
  {
    assert "." + "png" == ".png";
  }

  /** As written, keeping original names does not keep `shop.png`: the
      candidate name is built from `sho`. */
  lemma ShopPngIsRenamed(mime: string, created: Stamp, path: string, noteTitle: string, env: Env)
    ensures CreateFilenameAsWritten("shop.png", mime, created, path, noteTitle, true, env)
            == Ok(env.checkForDouble(MediaDir(path, noteTitle, env), Underscored(env.urlSafe("sho")) + ".png"))
  {
    var written := Split("sho", "png");
    ShopPngSplitsAsWritten(mime, env);
    PngShape(Underscored(env.urlSafe("sho")));
    ShortBaseKept(written, created, env);
  }

  /** The corrected definition keeps `shop`. */
  lemma ShopPngIsKept(mime: string, created: Stamp, path: string, noteTitle: string, env: Env)
    ensures CreateFilename("shop.png", mime, created, path, noteTitle, true, env)
            == Ok(env.checkForDouble(MediaDir(path, noteTitle, env), Underscored(env.urlSafe("shop")) + ".png"))
  {
    var intended := Split("shop", "png");
    ShopPngSplits(mime, env);
    PngShape(Underscored(env.urlSafe("shop")));
    ShortBaseKept(intended, created, env);
  }

  /** As written, `jpg.jpg` splits into an empty base and `jpg`. */
  lemma JpgJpgSplitsAsWritten(mime: string, env: Env)
    ensures SplitAsWritten("jpg.jpg", mime, env) == Ok(Split("", "jpg"))
  {
    var name := "jpg.jpg";
    assert '.' in name by { assert name[3] == '.'; }
    JpgJpgHasEmptyBase();
  }

  lemma JpgShape(u: string)
    ensures ' ' !in "jpg"
    ensures u + "." + "jpg" == u + ".jpg"
  {
    assert "." + "jpg" == ".jpg";
  }

  /** As written, keeping original names does not keep `jpg.jpg`: the base
      is stripped away entirely and the creation stamp names the file. */
  lemma JpgJpgIsStamped(mime: string, created: Stamp, path: string, noteTitle: string, env: Env)
    ensures CreateFilenameAsWritten("jpg.jpg", mime, created, path, noteTitle, true, env)
            == Ok(env.checkForDouble(MediaDir(path, noteTitle, env), Underscored(env.fileStamp(created)) + ".jpg"))
  {
    JpgJpgSplitsAsWritten(mime, env);
    JpgShape(Underscored(env.fileStamp(created)));
    UnderscoredMeaning("jpg");
    assert Underscored("jpg") == "jpg";
  }
}

=== FILE: base64.dfy ===
/** The base64 encoding of section 4 of RFC 4648 (standard alphabet, `=`
    padding), as the exporter's payload decoder reads it. */
module Base64 {
  import opened Outcomes

  type Byte = x: int | 0 <= x < 256
  type Sextet = x: int | 0 <= x < 64

  const Pad := '='

  /** Table 1 of RFC 4648: `A`-`Z`, `a`-`z`, `0`-`9`, `+`, `/`. */
  function CharOf(v: Sextet): char {
    if v < 26 then ('A' as int + v) as char
    else if v < 52 then ('a' as int + (v - 26)) as char
    else if v < 62 then ('0' as int + (v - 52)) as char
    else if v == 62 then '+'
    else '/'
  }

  /** The value of an alphabet character; `None` for anything else, `=` included. */
  function ValueOf(c: char): Option<Sextet> {
    if 'A' <= c <= 'Z' then Some(c as int - 'A' as int)
    else if 'a' <= c <= 'z' then Some(c as int - 'a' as int + 26)
    else if '0' <= c <= '9' then Some(c as int - '0' as int + 52)
    else if c == '+' then Some(62)
    else if c == '/' then Some(63)
    else None
  }

  /** The alphabet is a bijection between the 64 values and 64 characters,
      none of which is the pad character. */
  lemma AlphabetBijection(v: Sextet, c: char)
    ensures ValueOf(CharOf(v)) == Some(v)
    ensures CharOf(v) != Pad
    ensures ValueOf(c).Some? ==> CharOf(ValueOf(c).value) == c
  {
  }

  // ---------------------------------------------------------------------------
  // Encoding
  // ---------------------------------------------------------------------------

  /** Three bytes as four characters. */
  function EncodeGroup(b0: Byte, b1: Byte, b2: Byte): string {
    [CharOf(b0 / 4), CharOf((b0 % 4) * 16 + b1 / 16), CharOf((b1 % 16) * 4 + b2 / 64), CharOf(b2 % 64)]
  }

  /** A final single byte: two characters and two pads. */
  function EncodeOne(b0: Byte): string {
    [CharOf(b0 / 4), CharOf((b0 % 4) * 16), Pad, Pad]
  }

  /** A final pair of bytes: three characters and one pad. */
  function EncodeTwo(b0: Byte, b1: Byte): string {
    [CharOf(b0 / 4), CharOf((b0 % 4) * 16 + b1 / 16), CharOf((b1 % 16) * 4), Pad]
  }

  function Encode(bs: seq<Byte>): string
    decreases |bs|
  {
    if |bs| == 0 then ""
    else if |bs| == 1 then EncodeOne(bs[0])
    else if |bs| == 2 then EncodeTwo(bs[0], bs[1])
    else EncodeGroup(bs[0], bs[1], bs[2]) + Encode(bs[3..])
  }

  // ---------------------------------------------------------------------------
  // Decoding
  // ---------------------------------------------------------------------------

  /** The bytes carried by consecutive sextets: the first takes 6 + 2 bits,
      the second 4 + 4, the third 2 + 6. */
  function Byte0(v0: Sextet, v1: Sextet): Byte {
    (v0 as int) * 4 + (v1 as int) / 16
  }

  function Byte1(v1: Sextet, v2: Sextet): Byte {
    ((v1 as int) % 16) * 16 + (v2 as int) / 4
  }

  function Byte2(v2: Sextet, v3: Sextet): Byte {
    ((v2 as int) % 4) * 64 + v3 as int
  }

  /** Four alphabet characters as three bytes. */
  function DecodeGroup(q: string): Option<seq<Byte>>
    requires |q| == 4
  {
    match (ValueOf(q[0]), ValueOf(q[1]), ValueOf(q[2]), ValueOf(q[3]))
    case (Some(v0), Some(v1), Some(v2), Some(v3)) =>
      Some([Byte0(v0, v1), Byte1(v1, v2), Byte2(v2, v3)])
    case _ => None
  }

  /** The final quantum, which may end in one or two pads. Bits below the
      last full byte are ignored, as Python's decoder ignores them. */
  function DecodeLast(q: string): Option<seq<Byte>>
    requires |q| == 4
  {
    if q[2] == Pad && q[3] == Pad then
      match (ValueOf(q[0]), ValueOf(q[1]))
      case (Some(v0), Some(v1)) => Some([Byte0(v0, v1)])
      case _ => None
    else if q[3] == Pad then
      match (ValueOf(q[0]), ValueOf(q[1]), ValueOf(q[2]))
      case (Some(v0), Some(v1), Some(v2)) => Some([Byte0(v0, v1), Byte1(v1, v2)])
      case _ => None
    else DecodeGroup(q)
  }

  /** Strict decoding: whole quanta of alphabet characters, pads only at the
      very end; anything else is malformed. */
  function Decode(s: string): Option<seq<Byte>>
    decreases |s|
  {
    if |s| == 0 then Some([])
    else if |s| < 4 then None
    else if |s| == 4 then DecodeLast(s)
    else match DecodeGroup(s[..4])
      case None => None
      case Some(head) =>
        match Decode(s[4..])
        case None => None
        case Some(tail) => Some(head + tail)
  }

  // ---------------------------------------------------------------------------
  // Round trip
  // ---------------------------------------------------------------------------

  /** Four alphabet characters decode to the bytes their values carry,
      whether or not they form the final quantum. */
  lemma DecodeValues(v0: Sextet, v1: Sextet, v2: Sextet, v3: Sextet)
    ensures DecodeGroup([CharOf(v0), CharOf(v1), CharOf(v2), CharOf(v3)])
            == Some([Byte0(v0, v1), Byte1(v1, v2), Byte2(v2, v3)])
    ensures DecodeLast([CharOf(v0), CharOf(v1), CharOf(v2), CharOf(v3)])
            == Some([Byte0(v0, v1), Byte1(v1, v2), Byte2(v2, v3)])
  {
    AlphabetBijection(v0, ' ');
    AlphabetBijection(v1, ' ');
    AlphabetBijection(v2, ' ');
    AlphabetBijection(v3, ' ');
  }

  /** Splitting three bytes into sextets and reassembling them is lossless. */
  lemma RegroupBytes(b0: Byte, b1: Byte, b2: Byte)
    ensures Byte0(b0 / 4, (b0 % 4) * 16 + b1 / 16) == b0
    ensures Byte1((b0 % 4) * 16 + b1 / 16, (b1 % 16) * 4 + b2 / 64) == b1
    ensures Byte2((b1 % 16) * 4 + b2 / 64, b2 % 64) == b2
  {
    assert ((b0 % 4) * 16 + b1 / 16) / 16 == b0 % 4;
    assert ((b0 % 4) * 16 + b1 / 16) % 16 == b1 / 16;
    assert ((b1 % 16) * 4 + b2 / 64) / 4 == b1 % 16;
    assert ((b1 % 16) * 4 + b2 / 64) % 4 == b2 / 64;
  }

  lemma GroupRoundTrip(b0: Byte, b1: Byte, b2: Byte)
    ensures DecodeGroup(EncodeGroup(b0, b1, b2)) == Some([b0, b1, b2])
    ensures DecodeLast(EncodeGroup(b0, b1, b2)) == Some([b0, b1, b2])
  {
    DecodeValues(b0 / 4, (b0 % 4) * 16 + b1 / 16, (b1 % 16) * 4 + b2 / 64, b2 % 64);
    RegroupBytes(b0, b1, b2);
  }

  lemma OneRoundTrip(b0: Byte)
    ensures DecodeLast(EncodeOne(b0)) == Some([b0])
  {
    AlphabetBijection(b0 / 4, ' ');
    AlphabetBijection((b0 % 4) * 16, ' ');
    assert ((b0 % 4) * 16) / 16 == b0 % 4;
  }

  lemma TwoRoundTrip(b0: Byte, b1: Byte)
    ensures DecodeLast(EncodeTwo(b0, b1)) == Some([b0, b1])
  {
    AlphabetBijection(b0 / 4, ' ');
    AlphabetBijection((b0 % 4) * 16 + b1 / 16, ' ');
    AlphabetBijection((b1 % 16) * 4, ' ');
    RegroupBytes(b0, b1, 0);
  }

  lemma EncodeStep(bs: seq<Byte>)
    requires |bs| > 3
    ensures Encode(bs)[..4] == EncodeGroup(bs[0], bs[1], bs[2])
    ensures Encode(bs)[4..] == Encode(bs[3..])
    ensures |Encode(bs)| > 4
  {
    var g, t := EncodeGroup(bs[0], bs[1], bs[2]), Encode(bs[3..]);
    assert Encode(bs) == g + t;
    assert |g| == 4;
    assert |t| > 0;
  }

  lemma DecodeStep(s: string)
    requires |s| > 4
    requires DecodeGroup(s[..4]).Some? && Decode(s[4..]).Some?
    ensures Decode(s) == Some(DecodeGroup(s[..4]).value + Decode(s[4..]).value)
  {
  }

  lemma OneByteRoundTrip(bs: seq<Byte>)
    requires |bs| == 1
    ensures Decode(Encode(bs)) == Some(bs)
  {
    var q := EncodeOne(bs[0]);
    assert Encode(bs) == q;
    OneRoundTrip(bs[0]);
    assert Decode(q) == DecodeLast(q);
    assert bs == [bs[0]];
  }

  lemma TwoBytesRoundTrip(bs: seq<Byte>)
    requires |bs| == 2
    ensures Decode(Encode(bs)) == Some(bs)
  {
    var q := EncodeTwo(bs[0], bs[1]);
    assert Encode(bs) == q;
    TwoRoundTrip(bs[0], bs[1]);
    assert Decode(q) == DecodeLast(q);
    assert bs == [bs[0], bs[1]];
  }

  lemma ThreeBytesRoundTrip(bs: seq<Byte>)
    requires |bs| == 3
    ensures Decode(Encode(bs)) == Some(bs)
  {
    var q := EncodeGroup(bs[0], bs[1], bs[2]);
    assert Encode(bs[3..]) == "";
    assert Encode(bs) == q + "";
    GroupRoundTrip(bs[0], bs[1], bs[2]);
    assert Decode(q) == DecodeLast(q);
    assert bs == [bs[0], bs[1], bs[2]];
  }

  /** One group of three bytes in front of a tail that already round-trips. */
  lemma GroupStep(bs: seq<Byte>)
    requires |bs| > 3
    requires Decode(Encode(bs[3..])) == Some(bs[3..])
    ensures Decode(Encode(bs)) == Some(bs)
  {
    var s := Encode(bs);
    EncodeStep(bs);
    GroupRoundTrip(bs[0], bs[1], bs[2]);
    assert DecodeGroup(s[..4]) == Some([bs[0], bs[1], bs[2]]);
    DecodeStep(s);
    HeadGroup(bs);
  }

  lemma HeadGroup(bs: seq<Byte>)
    requires |bs| >= 3
    ensures bs == [bs[0], bs[1], bs[2]] + bs[3..]
  {
  }

  /** Decoding an encoding gives back the bytes. */
  lemma {:induction false} RoundTrip(bs: seq<Byte>)
    ensures Decode(Encode(bs)) == Some(bs)
    decreases |bs|
  {
    if |bs| == 1 {
      OneByteRoundTrip(bs);
    } else if |bs| == 2 {
      TwoBytesRoundTrip(bs);
    } else if |bs| == 3 {
      ThreeBytesRoundTrip(bs);
    } else if |bs| > 3 {
      RoundTrip(bs[3..]);
      GroupStep(bs);
    }
  }

  /** Every encoding decodes to the bytes it encodes. */
  lemma DecodesEveryEncoding()
    ensures forall bs: seq<Byte> :: Decode(Encode(bs)) == Some(bs)
  {
    forall bs: seq<Byte>
      ensures Decode(Encode(bs)) == Some(bs)
    {
      RoundTrip(bs);
    }
  }

  /** The length law of section 4 of RFC 4648 for the reference encoder:
      every three bytes, or part of three at the end, take four characters. */
  lemma {:induction false} EncodeLength(bs: seq<Byte>)
    ensures |Encode(bs)| == 4 * ((|bs| + 2) / 3)
    decreases |bs|
  {
    if |bs| > 3 {
      EncodeLength(bs[3..]);
      assert (|bs| + 2) / 3 == (|bs[3..]| + 2) / 3 + 1;
    }
  }

  /** Decoding the first quantum and the rest: the result's length adds up. */
  lemma DecodeSplitLength(s: string)
    requires |s| > 4
    ensures Decode(s).Some? ==> Decode(s[4..]).Some?
    ensures Decode(s).Some? ==> |Decode(s).value| == 3 + |Decode(s[4..]).value|
  {
  }

  /** Only whole quanta decode, and four characters never carry more than three bytes. */
  lemma {:induction false} DecodeLength(s: string)
    ensures |s| % 4 != 0 ==> Decode(s).None?
    ensures Decode(s).Some? ==> 4 * |Decode(s).value| <= 3 * |s|
    decreases |s|
  {
    if |s| > 4 {
      var t := s[4..];
      DecodeLength(t);
      DecodeSplitLength(s);
      assert |t| == |s| - 4;
      assert |t| % 4 == |s| % 4;
    }
  }

  /** A character an encoding may hold: an alphabet character or the pad. */
  predicate EncodingChar(c: char) {
    c == Pad || ValueOf(c).Some?
  }

  /** The quanta of at most three bytes hold only encoding characters. */
  lemma QuantumCharacters(bs: seq<Byte>)
    requires |bs| <= 3
    ensures forall i :: 0 <= i < |Encode(bs)| ==> EncodingChar(Encode(bs)[i])
  {
    forall v: Sextet
      ensures ValueOf(CharOf(v)).Some?
    {
      AlphabetBijection(v, ' ');
    }
    if |bs| == 3 {
      assert Encode(bs) == EncodeGroup(bs[0], bs[1], bs[2]) + Encode(bs[3..]);
      assert Encode(bs[3..]) == "";
    }
  }

  /** An encoding holds only alphabet characters and pads, never a line break. */
  lemma {:induction false} EncodingCharacters(bs: seq<Byte>)
    ensures forall i :: 0 <= i < |Encode(bs)| ==> Encode(bs)[i] == Pad || ValueOf(Encode(bs)[i]).Some?
    decreases |bs|
  {
    if |bs| <= 3 {
      QuantumCharacters(bs);
    } else {
      var s := Encode(bs);
      EncodingCharacters(bs[3..]);
      EncodeStep(bs);
      QuantumCharacters(bs[..3]);
      assert Encode(bs[..3]) == s[..4] by {
        assert Encode(bs[..3][3..]) == "";
      }
      forall i | 0 <= i < |s|
        ensures EncodingChar(s[i])
      {
        if i >= 4 {
          assert s[i] == s[4..][i - 4];
        } else {
          assert s[i] == s[..4][i];
        }
      }
    }
  }
}

=== FILE: checkboxes.dfy ===
/** Rewriting of Evernote's to-do markup (`Note.convert_evernote_markings`):
    five literal `str.replace` passes applied one after the other. */
module Checkboxes {
  import opened Text

  const UncheckedSelfClosing := "<en-todo checked=\"false\"/>"
  const UncheckedOpen := "<en-todo checked=\"false\">"
  const CheckedSelfClosing := "<en-todo checked=\"true\"/>"
  const CheckedOpen := "<en-todo checked=\"true\">"
  const CloseTodo := "</en-todo>"

  /** The markers carry `<ignore>` so that the renderer does not escape the dash. */
  const UncheckedBox := "-<ignore> [ ] "
  const CheckedBox := "-<ignore> [x] "

  /** The `(take, give)` pairs, in the order `note.py` applies them. */
  const Rewrites: seq<(string, string)> := [
    (UncheckedSelfClosing, UncheckedBox),
    (UncheckedOpen, UncheckedBox),
    (CheckedSelfClosing, CheckedBox),
    (CheckedOpen, CheckedBox),
    (CloseTodo, "")
  ]

  predicate ValidRules(rules: seq<(string, string)>) {
    forall k :: 0 <= k < |rules| ==> |rules[k].0| > 0
  }

  /** Each rule in turn replaces every occurrence of its first string in
      the current markup by its second string. */
  function ApplyAll(html: string, rules: seq<(string, string)>): string
    requires ValidRules(rules)
    decreases |rules|
  {
    if |rules| == 0 then html
    else ApplyAll(Replace(html, rules[0].0, rules[0].1), rules[1..])
  }

  /** The checkbox part of `Note.convert_evernote_markings`. */
  function ConvertCheckboxes(html: string): string {
    assert ValidRules(Rewrites);
    ApplyAll(html, Rewrites)
  }

  // ---------------------------------------------------------------------------
  // Markup that contains none of the five literals is left alone, and markup
  // that contains one of them is always changed.
  // ---------------------------------------------------------------------------

  lemma {:induction false} ApplyAllAbsent(s: string, rules: seq<(string, string)>)
    requires ValidRules(rules)
    requires forall k :: 0 <= k < |rules| ==> !Occurs(rules[k].0, s)
    ensures ApplyAll(s, rules) == s
    decreases |rules|
  {
    if |rules| > 0 {
      ReplaceAbsent(s, rules[0].0, rules[0].1);
      ApplyAllAbsent(s, rules[1..]);
    }
  }

  lemma {:induction false} ApplyAllShrinks(s: string, rules: seq<(string, string)>)
    requires ValidRules(rules)
    requires forall k :: 0 <= k < |rules| ==> |rules[k].1| < |rules[k].0|
    ensures |ApplyAll(s, rules)| <= |s|
    ensures (exists k :: 0 <= k < |rules| && Occurs(rules[k].0, s)) ==> |ApplyAll(s, rules)| < |s|
    decreases |rules|
  {
    if |rules| > 0 {
      var s' := Replace(s, rules[0].0, rules[0].1);
      ReplaceLength(s, rules[0].0, rules[0].1);
      ApplyAllShrinks(s', rules[1..]);
      if exists k :: 0 <= k < |rules| && Occurs(rules[k].0, s) {
        if !Occurs(rules[0].0, s) {
          ReplaceAbsent(s, rules[0].0, rules[0].1);
          var k :| 0 <= k < |rules| && Occurs(rules[k].0, s);
          assert rules[1..][k - 1] == rules[k];
        }
      }
    }
  }

  /** The rewrite changes the markup exactly when one of the five literals occurs in it. */
  lemma ConvertUnchangedIff(s: string)
    ensures ConvertCheckboxes(s) == s <==>
            forall k :: 0 <= k < |Rewrites| ==> !Occurs(Rewrites[k].0, s)
  {
    assert ValidRules(Rewrites);
    if forall k :: 0 <= k < |Rewrites| ==> !Occurs(Rewrites[k].0, s) {
      ApplyAllAbsent(s, Rewrites);
    } else {
      ApplyAllShrinks(s, Rewrites);
    }
  }

  // ---------------------------------------------------------------------------
  // Markup seen as a sequence of pieces: plain text and to-do tags.
  // ---------------------------------------------------------------------------

  datatype Piece = Plain(t: string) | Todo(checked: bool, selfClosing: bool) | EndTodo

  /** Plain text that cannot take part in any of the five literals. */
  predicate PlainText(t: string) {
    forall k :: 0 <= k < |Rewrites| ==> Inert(t, Rewrites[k].0)
  }

  predicate WellFormed(ps: seq<Piece>) {
    forall i :: 0 <= i < |ps| ==> ps[i].Plain? ==> PlainText(ps[i].t)
  }

  /** Index of the rule that rewrites a tag piece. */
  function RuleOf(p: Piece): (k: nat)
    requires !p.Plain?
    ensures k < |Rewrites|
  {
    match p
    case Todo(checked, selfClosing) =>
      (if checked then 2 else 0) + (if selfClosing then 0 else 1)
    case EndTodo => 4
  }

  /** How a piece reads after the first `k` passes. */
  function Stage(k: nat, p: Piece): string {
    if p.Plain? then p.t
    else if RuleOf(p) < k then Rewrites[RuleOf(p)].1
    else Rewrites[RuleOf(p)].0
  }

  function StageAll(k: nat, ps: seq<Piece>): string
    decreases |ps|
  {
    if |ps| == 0 then "" else Stage(k, ps[0]) + StageAll(k, ps[1..])
  }

  /** The Evernote markup a sequence of pieces spells. */
  function Html(ps: seq<Piece>): string {
    StageAll(0, ps)
  }

  /** Independent reading of the intended result, piece by piece: every
      unchecked tag becomes `-<ignore> [ ] `, every checked tag becomes
      `-<ignore> [x] `, every closing tag disappears, text stays. */
  function Expected(p: Piece): string {
    match p
    case Plain(t) => t
    case Todo(checked, _) => if checked then CheckedBox else UncheckedBox
    case EndTodo => ""
  }

  function ExpectedAll(ps: seq<Piece>): string
    decreases |ps|
  {
    if |ps| == 0 then "" else Expected(ps[0]) + ExpectedAll(ps[1..])
  }

  /** Shape of the five literals: `<` only in front, never a prefix of one another. */
  lemma LiteralShapes()
    ensures forall k :: 0 <= k < |Rewrites| ==>
              |Rewrites[k].0| >= 2 && Rewrites[k].0[0] == '<' && Rewrites[k].0[1] != 'i'
    ensures forall k, i :: 0 <= k < |Rewrites| && 1 <= i < |Rewrites[k].0| ==> Rewrites[k].0[i] != '<'
    ensures forall j, k :: 0 <= j < |Rewrites| && 0 <= k < |Rewrites| && j != k ==>
              !Clash(Rewrites[j].0, Rewrites[k].0)
  {
    assert UncheckedSelfClosing[24] == '/' && UncheckedOpen[24] == '>';
    assert CheckedSelfClosing[23] == '/' && CheckedOpen[23] == '>';
    assert UncheckedOpen[18] == 'f' && CheckedOpen[18] == 't';
    assert CloseTodo[1] == '/' && UncheckedOpen[1] == 'e';
  }

  /** A string whose only `<` opens `<i` at position 1 cannot start a
      literal that begins with `<` but not with `<i`. */
  lemma InertMarker(x: string, take: string)
    requires |take| >= 2 && take[0] == '<' && take[1] != 'i'
    requires |x| > 2 && x[1] == '<' && x[2] == 'i'
    requires forall i :: 0 <= i < |x| && i != 1 ==> x[i] != '<'
    ensures Inert(x, take)
  {
    forall i | 0 <= i < |x|
      ensures !Clash(x[i..], take)
    {
      if i == 1 {
        assert x[1..][1] == 'i';
      } else {
        assert x[i..][0] == x[i];
      }
    }
  }

  lemma BoxShapes()
    ensures |UncheckedBox| > 2 && UncheckedBox[1] == '<' && UncheckedBox[2] == 'i'
    ensures forall i :: 0 <= i < |UncheckedBox| && i != 1 ==> UncheckedBox[i] != '<'
    ensures |CheckedBox| > 2 && CheckedBox[1] == '<' && CheckedBox[2] == 'i'
    ensures forall i :: 0 <= i < |CheckedBox| && i != 1 ==> CheckedBox[i] != '<'
  {
  }

  /** The markers produced by earlier passes are invisible to later ones. */
  lemma MarkersInert(j: nat, k: nat)
    requires j < |Rewrites| && k < |Rewrites|
    ensures Inert(Rewrites[j].1, Rewrites[k].0)
  {
    LiteralShapes();
    if j < 4 {
      BoxShapes();
      InertMarker(Rewrites[j].1, Rewrites[k].0);
    }
  }

  lemma PassPiece(k: nat, p: Piece, rest: string)
    requires k < |Rewrites|
    requires p.Plain? ==> PlainText(p.t)
    ensures Replace(Stage(k, p) + rest, Rewrites[k].0, Rewrites[k].1)
            == Stage(k + 1, p) + Replace(rest, Rewrites[k].0, Rewrites[k].1)
  {
    var take, give := Rewrites[k].0, Rewrites[k].1;
    LiteralShapes();
    if p.Plain? {
      ReplaceSkip(p.t, rest, take, give);
    } else if RuleOf(p) == k {
      ReplaceHead(rest, take, give);
    } else if RuleOf(p) > k {
      InertToken(Rewrites[RuleOf(p)].0, take);
      ReplaceSkip(Stage(k, p), rest, take, give);
    } else {
      MarkersInert(RuleOf(p), k);
      ReplaceSkip(Stage(k, p), rest, take, give);
    }
  }

  lemma {:induction false} PassAll(k: nat, ps: seq<Piece>)
    requires k < |Rewrites|
    requires WellFormed(ps)
    ensures Replace(StageAll(k, ps), Rewrites[k].0, Rewrites[k].1) == StageAll(k + 1, ps)
    decreases |ps|
  {
    if |ps| > 0 {
      PassPiece(k, ps[0], StageAll(k, ps[1..]));
      PassAll(k, ps[1..]);
    }
  }

  lemma {:induction false} PassesFrom(k: nat, ps: seq<Piece>)
    requires k <= |Rewrites|
    requires WellFormed(ps)
    ensures ValidRules(Rewrites[k..])
    ensures ApplyAll(StageAll(k, ps), Rewrites[k..]) == StageAll(|Rewrites|, ps)
    decreases |Rewrites| - k
  {
    if k < |Rewrites| {
      PassAll(k, ps);
      PassesFrom(k + 1, ps);
      assert Rewrites[k..][1..] == Rewrites[k + 1..];
    }
  }

  lemma {:induction false} FinalStage(ps: seq<Piece>)
    ensures StageAll(|Rewrites|, ps) == ExpectedAll(ps)
    decreases |ps|
  {
    if |ps| > 0 {
      FinalStage(ps[1..]);
    }
  }

  /** Each to-do tag becomes its Markdown marker, closing tags vanish and
      surrounding text is kept, in place. */
  lemma ConvertPieces(ps: seq<Piece>)
    requires WellFormed(ps)
    ensures ConvertCheckboxes(Html(ps)) == ExpectedAll(ps)
  {
    PassesFrom(0, ps);
    assert Rewrites[0..] == Rewrites;
    FinalStage(ps);
  }

  /** A closing tag preceded by `<` and followed by text without `<`. */
  function Respell(tail: string): string {
    "<" + CloseTodo + tail
  }

  lemma OpeningPassesKeepRespell(k: nat, tail: string)
    requires k < 4
    requires forall i :: 0 <= i < |tail| ==> tail[i] != '<'
    ensures Replace(Respell(tail), Rewrites[k].0, Rewrites[k].1) == Respell(tail)
  {
    LiteralShapes();
    var take, give := Rewrites[k].0, Rewrites[k].1;
    var s := Respell(tail);
    assert s == "<" + (CloseTodo + tail);
    assert !(take <= s) by { assert s[1] == '<'; }
    InertToken(CloseTodo, take);
    InertWithoutHead(tail, take);
    ReplaceSkip(tail, "", take, give);
    assert tail + "" == tail;
    ReplaceSkip(CloseTodo, tail, take, give);
    assert s[1..] == CloseTodo + tail;
  }

  lemma ClosingPassOnRespell(tail: string)
    requires forall i :: 0 <= i < |tail| ==> tail[i] != '<'
    ensures Replace(Respell(tail), CloseTodo, "") == "<" + tail
  {
    var s := Respell(tail);
    var take := CloseTodo;
    assert s == "<" + (take + tail);
    assert !(take <= s) by { assert s[1] == '<' && take[1] == '/'; }
    assert s[1..] == take + tail;
    assert Replace(s, take, "") == "<" + Replace(take + tail, take, "");
    ReplaceHead(tail, take, "");
    assert Replace(s, take, "") == "<" + Replace(tail, take, "");
    InertWithoutHead(tail, take);
    ReplaceSkip(tail, "", take, "");
    assert tail + "" == tail;
    assert Replace(tail, take, "") == tail;
  }

  /** The passes from the `k`-th on turn a respelled closing tag into `<`
      followed by the tail. */
  lemma {:induction false} PassesOnRespell(k: nat, tail: string)
    requires k < |Rewrites|
    requires forall i :: 0 <= i < |tail| ==> tail[i] != '<'
    ensures ValidRules(Rewrites[k..])
    ensures ApplyAll(Respell(tail), Rewrites[k..]) == "<" + tail
    decreases |Rewrites| - k
  {
    var rules := Rewrites[k..];
    assert rules[0] == Rewrites[k];
    if k == |Rewrites| - 1 {
      ClosingPassOnRespell(tail);
      assert rules[1..] == [];
    } else {
      OpeningPassesKeepRespell(k, tail);
      PassesOnRespell(k + 1, tail);
      assert rules[1..] == Rewrites[k + 1..];
    }
  }

  /** The deletion pass does not leave the markup free of closing tags: one
      can be spelled around the one it deletes. */
  lemma ClosingTagCanReappear()
    ensures ConvertCheckboxes(Respell("/en-todo>")) == CloseTodo
  {
    PassesOnRespell(0, "/en-todo>");
    assert Rewrites[0..] == Rewrites;
    assert "<" + "/en-todo>" == CloseTodo;
  }
}

=== FILE: fragments.dfy ===
/** The attachment's payload buffer: lines of base64 text collected while
    parsing (`Attachment.data_stream_in`) and decoded in one piece
    (`Attachment.decodeBase64`). */
module Fragments {
  import opened Outcomes
  import opened Text
  import opened Base64

  /** `b64decode` rejected the joined text. */
  datatype PayloadError = MalformedPayload

  /** `Attachment.data_stream_in`: the line is kept without its trailing
      line breaks. */
  function StreamIn(buffer: seq<string>, line: string): (r: seq<string>)
    ensures |r| == |buffer| + 1 && r[..|buffer|] == buffer
    ensures r[|buffer|] <= line
    ensures |r[|buffer|]| > 0 ==> r[|buffer|][|r[|buffer|]| - 1] != '\n'
    ensures forall i :: |r[|buffer|]| <= i < |line| ==> line[i] == '\n'
  {
    buffer + [RStrip(line, {'\n'})]
  }

  /** Feeding several lines in turn: the existing fragments stay in front
      and each line follows, in order, without its trailing line breaks. */
  function StreamAll(buffer: seq<string>, lines: seq<string>): (r: seq<string>)
    ensures |r| == |buffer| + |lines| && r[..|buffer|] == buffer
    ensures forall i :: 0 <= i < |lines| ==> r[|buffer| + i] == RStrip(lines[i], {'\n'})
    decreases |lines|
  {
    if |lines| == 0 then buffer
    else
      var r := StreamAll(StreamIn(buffer, lines[0]), lines[1..]);
      StreamedInOrder(buffer, lines, r);
      r
  }

  lemma StreamedInOrder(buffer: seq<string>, lines: seq<string>, r: seq<string>)
    requires |lines| > 0
    requires |r| == |buffer| + |lines| && r[..|buffer| + 1] == buffer + [RStrip(lines[0], {'\n'})]
    requires forall i :: 0 <= i < |lines| - 1 ==> r[|buffer| + 1 + i] == RStrip(lines[1..][i], {'\n'})
    ensures r[..|buffer|] == buffer
    ensures forall i :: 0 <= i < |lines| ==> r[|buffer| + i] == RStrip(lines[i], {'\n'})
  {
    assert r[..|buffer|] == r[..|buffer| + 1][..|buffer|];
    forall i | 0 <= i < |lines|
      ensures r[|buffer| + i] == RStrip(lines[i], {'\n'})
    {
      if i == 0 {
        assert r[|buffer|] == r[..|buffer| + 1][|buffer|];
      } else {
        assert lines[i] == lines[1..][i - 1];
      }
    }
  }

  /** `Attachment.decodeBase64`: the bytes and the emptied buffer, or the
      decoding error. Fragments that join to the encoding of some bytes give
      back exactly those bytes; a joined text that is not a whole number of
      quanta is rejected; a success empties the buffer and yields at most
      three bytes per four characters. */
  function DecodePayload(buffer: seq<string>): (r: Result<(seq<Byte>, seq<string>), PayloadError>)
    ensures forall bs: seq<Byte> :: Concat(buffer) == Encode(bs) ==> r == Ok((bs, []))
    ensures |Concat(buffer)| % 4 != 0 ==> r == Err(MalformedPayload)
    ensures r.Ok? ==> r.value.1 == [] && 4 * |r.value.0| <= 3 * |Concat(buffer)|
  {
    DecodesEveryEncoding();
    DecodeLength(Concat(buffer));
    match Decode(Concat(buffer))
    case None => Err(MalformedPayload)
    case Some(bytes) => Ok((bytes, []))
  }

  /** Each line with a line break appended. */
  function Terminated(lines: seq<string>): (r: seq<string>)
    ensures |r| == |lines|
    ensures forall i :: 0 <= i < |lines| ==> r[i] == lines[i] + "\n"
    decreases |lines|
  {
    if |lines| == 0 then [] else [lines[0] + "\n"] + Terminated(lines[1..])
  }

  /** A line with no line break of its own is kept whole. */
  lemma StripTerminator(line: string)
    requires '\n' !in line
    ensures RStrip(line + "\n", {'\n'}) == line
  {
    RStripUnique(line + "\n", {'\n'}, line);
  }

  /** Streaming the first terminated line keeps it whole. */
  lemma StreamFirst(buffer: seq<string>, lines: seq<string>)
    requires |lines| > 0 && '\n' !in lines[0]
    ensures StreamAll(buffer, Terminated(lines)) == StreamAll(buffer + [lines[0]], Terminated(lines[1..]))
  {
    var t := Terminated(lines);
    assert t[0] == lines[0] + "\n";
    assert t[1..] == Terminated(lines[1..]);
    StripTerminator(lines[0]);
  }

  /** Streaming lines that carry no line break of their own, each ended by
      one, restores them exactly. */
  lemma {:induction false} StreamAllRestores(buffer: seq<string>, lines: seq<string>)
    requires forall i :: 0 <= i < |lines| ==> '\n' !in lines[i]
    ensures StreamAll(buffer, Terminated(lines)) == buffer + lines
    decreases |lines|
  {
    if |lines| == 0 {
      assert buffer + lines == buffer;
    } else {
      StreamFirst(buffer, lines);
      StreamAllRestores(buffer + [lines[0]], lines[1..]);
      MoveFirst(buffer, lines);
    }
  }

  lemma MoveFirst(buffer: seq<string>, lines: seq<string>)
    requires |lines| > 0
    ensures buffer + [lines[0]] + lines[1..] == buffer + lines
  {
    assert lines == [lines[0]] + lines[1..];
  }

  /** The pieces of a string hold no line break when the string holds none. */
  lemma {:induction false} PiecesWithoutBreak(lines: seq<string>)
    requires '\n' !in Concat(lines)
    ensures forall i :: 0 <= i < |lines| ==> '\n' !in lines[i]
    decreases |lines|
  {
    if |lines| > 0 {
      var c, head, tail := Concat(lines), lines[0], Concat(lines[1..]);
      assert c == head + tail;
      assert '\n' !in head by {
        forall k | 0 <= k < |head|
          ensures head[k] != '\n'
        {
          assert head[k] == c[k];
        }
      }
      assert '\n' !in tail by {
        forall k | 0 <= k < |tail|
          ensures tail[k] != '\n'
        {
          assert tail[k] == c[|head| + k];
        }
      }
      PiecesWithoutBreak(lines[1..]);
      forall i | 1 <= i < |lines|
        ensures '\n' !in lines[i]
      {
        assert lines[i] == lines[1..][i - 1];
      }
    }
  }

  /** However an encoding is broken into lines, streaming the lines into an
      empty buffer and decoding gives back the bytes and empties the buffer. */
  lemma StreamedPayloadDecodes(bytes: seq<Byte>, lines: seq<string>)
    requires Concat(lines) == Encode(bytes)
    ensures DecodePayload(StreamAll([], Terminated(lines))) == Ok((bytes, []))
  {
    EncodingCharacters(bytes);
    assert '\n' !in Encode(bytes) by {
      forall i | 0 <= i < |Encode(bytes)|
        ensures Encode(bytes)[i] != '\n'
      {
        assert Encode(bytes)[i] == Pad || ValueOf(Encode(bytes)[i]).Some?;
      }
    }
    PiecesWithoutBreak(lines);
    StreamAllRestores([], lines);
    assert [] + lines == lines;
    RoundTrip(bytes);
  }
}

=== FILE: media_tags.dfy ===
/** Rewriting of `<en-media …/>` tags into Markdown links
    (`Note.convert_evernote_markings_attachments`). */
module MediaTags {
  import opened Outcomes
  import opened Text
  import opened Records

  const MediaOpen := "<en-media"

  /** Number of characters in an attachment fingerprint token. */
  const TokenLength := 32

  // ---------------------------------------------------------------------------
  // The pattern `<en-media[^>]*\/>` and `re.findall` over it
  // ---------------------------------------------------------------------------

  /** `t` is one whole match of `<en-media[^>]*\/>`. */
  predicate IsMediaTag(t: string) {
    && |t| >= |MediaOpen| + 2
    && MediaOpen <= t
    && t[|t| - 2] == '/' && t[|t| - 1] == '>'
    && forall i :: |MediaOpen| <= i < |t| - 2 ==> t[i] != '>'
  }

  /** Index of the first `>` at or after `from`. */
  function FirstGt(s: string, from: nat): (r: Option<nat>)
    ensures r.Some? ==> from <= r.value < |s| && s[r.value] == '>'
    ensures r.Some? ==> forall k :: from <= k < r.value ==> s[k] != '>'
    ensures r.None? ==> forall k :: from <= k < |s| ==> s[k] != '>'
    decreases |s| - from
  {
    if from >= |s| then None
    else if s[from] == '>' then Some(from)
    else FirstGt(s, from + 1)
  }

  /** Length of the match anchored at the start of `s`, if the pattern
      matches there. `[^>]*` cannot cross a `>`, so the match, if any, ends at
      the first `>` after `<en-media`. */
  function MatchAt(s: string): (r: Option<nat>)
    ensures r.Some? ==> 0 < r.value <= |s| && IsMediaTag(s[..r.value])
    ensures r.None? ==> forall n :: 0 <= n <= |s| ==> !IsMediaTag(s[..n])
  {
    if !(MediaOpen <= s) then
      NoMatchWithoutOpen(s);
      None
    else match FirstGt(s, |MediaOpen|)
      case None =>
        NoMatchWithoutGt(s);
        None
      case Some(j) =>
        if j >= |MediaOpen| + 1 && s[j - 1] == '/' then
          assert s[..j + 1][..|MediaOpen|] == s[..|MediaOpen|];
          Some(j + 1)
        else
          NoMatchBeforeFirstGt(s, j);
          None
  }

  lemma NoMatchWithoutOpen(s: string)
    requires !(MediaOpen <= s)
    ensures forall n :: 0 <= n <= |s| ==> !IsMediaTag(s[..n])
  {
    forall n | 0 <= n <= |s|
      ensures !IsMediaTag(s[..n])
    {
      if n >= |MediaOpen| {
        assert s[..n][..|MediaOpen|] == s[..|MediaOpen|];
      }
    }
  }

  lemma NoMatchWithoutGt(s: string)
    requires forall k :: |MediaOpen| <= k < |s| ==> s[k] != '>'
    ensures forall n :: 0 <= n <= |s| ==> !IsMediaTag(s[..n])
  {
    forall n | 0 <= n <= |s|
      ensures !IsMediaTag(s[..n])
    {
      if n >= |MediaOpen| + 2 {
        assert s[..n][n - 1] == s[n - 1];
      }
    }
  }

  lemma NoMatchBeforeFirstGt(s: string, j: nat)
    requires |MediaOpen| <= j < |s| && s[j] == '>'
    requires forall k :: |MediaOpen| <= k < j ==> s[k] != '>'
    requires !(j >= |MediaOpen| + 1 && s[j - 1] == '/')
    ensures forall n :: 0 <= n <= |s| ==> !IsMediaTag(s[..n])
  {
    forall n | 0 <= n <= |s|
      ensures !IsMediaTag(s[..n])
    {
      var t := s[..n];
      if n >= |MediaOpen| + 2 {
        if n - 1 > j {
          assert t[j] == s[j];
        } else if n - 1 < j {
          assert t[n - 1] == s[n - 1];
        } else {
          assert t[n - 2] == s[j - 1];
        }
      }
    }
  }

  /** `re.findall(r'<en-media[^>]*\/>', s)`: matches scanned left to right,
      resuming after each match. */
  function FindAll(s: string): (ms: seq<string>)
    ensures forall i :: 0 <= i < |ms| ==> IsMediaTag(ms[i])
    ensures forall i :: 0 <= i < |ms| ==> Occurs(ms[i], s)
    ensures ms == [] <==> forall p :: 0 <= p <= |s| ==> MatchAt(s[p..]).None?
    decreases |s|
  {
    if |s| == 0 then
      assert s[0..] == s;
      []
    else match MatchAt(s)
      case Some(n) =>
        var rest := FindAll(s[n..]);
        MatchFirst(s, n, rest);
        [s[..n]] + rest
      case None =>
        var rest := FindAll(s[1..]);
        OccursInSuffix(rest, s, 1);
        NoMatchShift(s);
        rest
  }

  /** A match at the start of `s`, followed by matches that occur further on,
      gives matches that occur in `s`, and `s` has a match. */
  lemma MatchFirst(s: string, n: nat, rest: seq<string>)
    requires MatchAt(s) == Some(n)
    requires forall i :: 0 <= i < |rest| ==> Occurs(rest[i], s[n..])
    ensures forall i :: 0 <= i < |[s[..n]] + rest| ==> Occurs(([s[..n]] + rest)[i], s)
    ensures !forall p :: 0 <= p <= |s| ==> MatchAt(s[p..]).None?
  {
    assert s[0..] == s;
    OccursInSuffix(rest, s, n);
    var ms := [s[..n]] + rest;
    forall i | 0 <= i < |ms|
      ensures Occurs(ms[i], s)
    {
      if i > 0 {
        assert ms[i] == rest[i - 1];
      }
    }
  }

  /** `re.findall` semantics: the first match returned is the leftmost one,
      and the scan resumes right after it. With the contract of `FindAll`
      (nothing is returned when the pattern matches nowhere) this fixes
      every match, in order, and no match starts in the text skipped before
      it. */
  lemma {:induction false} FindAllLeftmost(s: string, p: nat, n: nat)
    requires p <= |s| && MatchAt(s[p..]) == Some(n)
    requires forall q :: 0 <= q < p ==> MatchAt(s[q..]).None?
    ensures p + n <= |s|
    ensures FindAll(s) == [s[p..p + n]] + FindAll(s[p + n..])
  {
    FindAllDrop(s, p);
    MatchAtStart(s[p..], n);
    SliceAfter(s, p, n);
  }

  lemma SliceAfter(s: string, p: nat, n: nat)
    requires p + n <= |s|
    ensures s[p..][0..n] == s[p..p + n] && s[p..][n..] == s[p + n..]
  {
  }

  /** A scan that finds no match before `k` returns what the scan from `k` returns. */
  lemma {:induction false} FindAllDrop(s: string, k: nat)
    requires k <= |s|
    requires forall q :: 0 <= q < k ==> MatchAt(s[q..]).None?
    ensures FindAll(s) == FindAll(s[k..])
    decreases k
  {
    if k == 0 {
      assert s[0..] == s;
    } else {
      FindAllDrop(s, k - 1);
      FindAllSkip(s[k - 1..]);
      assert s[k - 1..][1..] == s[k..];
    }
  }

  lemma MatchAtStart(s: string, n: nat)
    requires MatchAt(s[0..]) == Some(n)
    ensures n <= |s|
    ensures FindAll(s) == [s[0..n]] + FindAll(s[n..])
  {
    assert s[0..] == s;
  }

  lemma FindAllSkip(s: string)
    requires |s| > 0 && MatchAt(s).None?
    ensures FindAll(s) == FindAll(s[1..])
  {
  }

  /** Whatever occurs in a suffix of `s` occurs in `s`. */
  lemma OccursInSuffix(ts: seq<string>, s: string, k: nat)
    requires k <= |s|
    requires forall i :: 0 <= i < |ts| ==> Occurs(ts[i], s[k..])
    ensures forall i :: 0 <= i < |ts| ==> Occurs(ts[i], s)
  {
    forall i | 0 <= i < |ts|
      ensures Occurs(ts[i], s)
    {
      var j :| 0 <= j <= |s[k..]| && ts[i] <= s[k..][j..];
      assert s[k..][j..] == s[k + j..];
    }
  }

  /** The pattern matches nowhere in `s` exactly when it does not match at
      its start and matches nowhere in `s[1..]`. */
  lemma NoMatchShift(s: string)
    requires |s| > 0
    ensures (forall p :: 0 <= p <= |s| ==> MatchAt(s[p..]).None?) <==>
            MatchAt(s).None? && forall p :: 0 <= p <= |s| - 1 ==> MatchAt(s[1..][p..]).None?
  {
    assert s[0..] == s;
    forall p | 0 <= p <= |s| - 1
      ensures s[1..][p..] == s[p + 1..]
    {
    }
    if MatchAt(s).None? && forall p :: 0 <= p <= |s| - 1 ==> MatchAt(s[1..][p..]).None? {
      forall p | 0 <= p <= |s|
        ensures MatchAt(s[p..]).None?
      {
        if p > 0 {
          assert s[1..][p - 1..] == s[p..];
        }
      }
    }
  }

  /** `re.findall` finds nothing exactly when no stretch of `s` is a whole
      media tag. */
  lemma FindAllEmptyIff(s: string)
    ensures FindAll(s) == [] <==> forall p, n :: 0 <= p <= n <= |s| ==> !IsMediaTag(s[p..n])
  {
    if FindAll(s) == [] {
      forall p, n | 0 <= p <= n <= |s|
        ensures !IsMediaTag(s[p..n])
      {
        NoMatchHere(s, p, n);
      }
    } else {
      var p :| 0 <= p <= |s| && MatchAt(s[p..]).Some?;
      MatchHere(s, p);
    }
  }

  lemma NoMatchHere(s: string, p: nat, n: nat)
    requires p <= n <= |s| && MatchAt(s[p..]).None?
    ensures !IsMediaTag(s[p..n])
  {
    assert s[p..][..n - p] == s[p..n];
  }

  lemma MatchHere(s: string, p: nat)
    requires p <= |s| && MatchAt(s[p..]).Some?
    ensures IsMediaTag(s[p..p + MatchAt(s[p..]).value])
  {
    var n := MatchAt(s[p..]).value;
    assert s[p..][..n] == s[p..p + n];
  }

  // ---------------------------------------------------------------------------
  // The fingerprint token: the first match of `[a-zA-Z0-9]{32}`
  // ---------------------------------------------------------------------------

  predicate IsAsciiAlnum(c: char) {
    ('a' <= c <= 'z') || ('A' <= c <= 'Z') || ('0' <= c <= '9')
  }

  /** A run of 32 ASCII letters and digits starts at `p`. */
  predicate RunAt(s: string, p: nat) {
    p + TokenLength <= |s| && forall i :: p <= i < p + TokenLength ==> IsAsciiAlnum(s[i])
  }

  /** Leftmost position at or after `from` where a run starts. */
  function FirstRun(s: string, from: nat): (r: Option<nat>)
    ensures r.Some? ==> from <= r.value && RunAt(s, r.value)
    ensures r.Some? ==> forall q :: from <= q < r.value ==> !RunAt(s, q)
    ensures r.None? ==> forall q :: from <= q ==> !RunAt(s, q)
    decreases |s| - from
  {
    if from + TokenLength > |s| then None
    else if RunAt(s, from) then Some(from)
    else FirstRun(s, from + 1)
  }

  // ---------------------------------------------------------------------------
  // Resolving one tag
  // ---------------------------------------------------------------------------

  /** The two ways the rewrite raises: `next` on an exhausted generator
      (StopIteration), carrying the token when the tag has one, and
      `_hash[0]` on an empty list (IndexError). The filter that reads
      `_hash[0]` runs only once the generator has an attachment to offer, so
      a note without attachments always fails with the former. */
  datatype MediaError = NoHashToken(tag: string) | NoAttachment(hash: Option<string>)

  /** Position of the first attachment, in registration order, whose
      original fingerprint is `h`. */
  function FindByHash(atts: seq<Attachment>, h: string): (r: Option<nat>)
    ensures r.Some? ==> r.value < |atts| && atts[r.value].originalHash == h
    ensures r.Some? ==> forall j :: 0 <= j < r.value ==> atts[j].originalHash != h
    ensures r.None? ==> forall j :: 0 <= j < |atts| ==> atts[j].originalHash != h
    decreases |atts|
  {
    if |atts| == 0 then None
    else if atts[0].originalHash == h then Some(0)
    else match FindByHash(atts[1..], h)
      case None => None
      case Some(i) => Some(i + 1)
  }

  /** The Markdown link that replaces a tag; `!` makes it an image link. */
  function Placeholder(tag: string, filename: string): string {
    "\n" + (if Occurs("image", tag) then "!" else "")
    + "[" + filename + "](" + MediaPath + "/" + filename + ")"
  }

  /** `_hash[0]`, when the tag has a token. */
  function Token(tag: string): Option<string> {
    match FirstRun(tag, 0)
    case None => None
    case Some(q) => Some(tag[q..q + TokenLength])
  }

  /** The placeholder for one matched tag, or the error `note.py` raises. */
  function Resolve(tag: string, atts: seq<Attachment>): Result<string, MediaError> {
    if |atts| == 0 then Err(NoAttachment(Token(tag)))
    else match Token(tag)
      case None => Err(NoHashToken(tag))
      case Some(h) =>
        match FindByHash(atts, h)
        case None => Err(NoAttachment(Some(h)))
        case Some(j) => Ok(Placeholder(tag, atts[j].filename))
  }

  /** What resolving a tag means: its token is the leftmost run of 32 ASCII
      letters and digits; the link names the first attachment, in
      registration order, whose original fingerprint is that token. A note
      without attachments fails with NoAttachment whatever the tag holds;
      otherwise the failures are exactly the absence of a token and the
      absence of such an attachment. */
  lemma ResolveMeaning(tag: string, atts: seq<Attachment>)
    ensures |atts| == 0 ==> Resolve(tag, atts).Err? && Resolve(tag, atts).error.NoAttachment?
    ensures Resolve(tag, atts).Err? && Resolve(tag, atts).error.NoHashToken? <==>
            |atts| > 0 && forall q: nat :: !RunAt(tag, q)
    ensures Resolve(tag, atts).Err? && Resolve(tag, atts).error == NoAttachment(None) <==>
            |atts| == 0 && forall q: nat :: !RunAt(tag, q)
    ensures Resolve(tag, atts).Err? && Resolve(tag, atts).error.NoAttachment? && Resolve(tag, atts).error.hash.Some? ==>
              exists q: nat :: && RunAt(tag, q)
                               && (forall q': nat :: q' < q ==> !RunAt(tag, q'))
                               && Resolve(tag, atts).error.hash == Some(tag[q..q + TokenLength])
                               && forall j :: 0 <= j < |atts| ==> atts[j].originalHash != tag[q..q + TokenLength]
    ensures Resolve(tag, atts).Ok? ==>
              exists q: nat, j :: && RunAt(tag, q)
                                  && (forall q': nat :: q' < q ==> !RunAt(tag, q'))
                                  && 0 <= j < |atts| && atts[j].originalHash == tag[q..q + TokenLength]
                                  && (forall j' :: 0 <= j' < j ==> atts[j'].originalHash != atts[j].originalHash)
                                  && Resolve(tag, atts).value == Placeholder(tag, atts[j].filename)
  {
    match FirstRun(tag, 0)
    case None =>
      assert Token(tag).None?;
    case Some(q) =>
      var h := tag[q..q + TokenLength];
      assert Token(tag) == Some(h) && RunAt(tag, q);
      if |atts| > 0 {
        match FindByHash(atts, h)
        case None =>
          assert Resolve(tag, atts) == Err(NoAttachment(Some(h)));
        case Some(j) =>
          assert Resolve(tag, atts) == Ok(Placeholder(tag, atts[j].filename));
      }
  }

  /** A tag without a token, in a note without attachments, stops the
      generator before its filter reads the token. */
  lemma UntokenedTagWithoutAttachments(tag: string)
    requires FirstRun(tag, 0).None?
    ensures Resolve(tag, []) == Err(NoAttachment(None))
  {
  }

  // ---------------------------------------------------------------------------
  // The rewrite loop
  // ---------------------------------------------------------------------------

  predicate NonEmptyAll(ms: seq<string>) {
    forall i :: 0 <= i < |ms| ==> |ms[i]| > 0
  }

  /** The loop body over `matches`: each tag is resolved, then every
      occurrence of its text in the current markup is replaced. */
  function ApplyMatches(html: string, ms: seq<string>, atts: seq<Attachment>): Result<string, MediaError>
    requires NonEmptyAll(ms)
    decreases |ms|
  {
    if |ms| == 0 then Ok(html)
    else match Resolve(ms[0], atts)
      case Err(e) => Err(e)
      case Ok(ph) => ApplyMatches(Replace(html, ms[0], ph), ms[1..], atts)
  }

  /** `Note.convert_evernote_markings_attachments` */
  function RewriteMedia(html: string, atts: seq<Attachment>): Result<string, MediaError> {
    var ms := FindAll(html);
    assert NonEmptyAll(ms);
    ApplyMatches(html, ms, atts)
  }

  /** Markup in which no `<en-media` can start passes through unchanged. */
  lemma NoMediaUnchanged(html: string, atts: seq<Attachment>)
    requires Inert(html, MediaOpen)
    ensures RewriteMedia(html, atts) == Ok(html)
  {
    FindAllSkipsMarkup(html, "");
    assert html + "" == html;
  }

  /** The loop fails exactly when some matched tag fails to resolve, and it
      reports the error of the first such tag. */
  lemma {:induction false} ApplyMatchesFails(html: string, ms: seq<string>, atts: seq<Attachment>)
    requires NonEmptyAll(ms)
    ensures ApplyMatches(html, ms, atts).Err? <==>
            exists i :: 0 <= i < |ms| && Resolve(ms[i], atts).Err?
    ensures forall i :: 0 <= i < |ms| && Resolve(ms[i], atts).Err?
                        && (forall j :: 0 <= j < i ==> Resolve(ms[j], atts).Ok?) ==>
              ApplyMatches(html, ms, atts) == Err(Resolve(ms[i], atts).error)
    decreases |ms|
  {
    if |ms| > 0 {
      match Resolve(ms[0], atts)
      case Err(e) =>
      case Ok(ph) =>
        var rest := ms[1..];
        ApplyMatchesFails(Replace(html, ms[0], ph), rest, atts);
        assert forall i :: 1 <= i < |ms| ==> ms[i] == rest[i - 1];
        if exists i :: 0 <= i < |ms| && Resolve(ms[i], atts).Err? {
          var i :| 0 <= i < |ms| && Resolve(ms[i], atts).Err?;
          assert Resolve(rest[i - 1], atts).Err?;
        }
        forall i | 0 <= i < |ms| && Resolve(ms[i], atts).Err?
                   && (forall j :: 0 <= j < i ==> Resolve(ms[j], atts).Ok?)
          ensures ApplyMatches(html, ms, atts) == Err(Resolve(ms[i], atts).error)
        {
          assert forall j :: 0 <= j < i - 1 ==> Resolve(rest[j], atts).Ok? by {
            forall j | 0 <= j < i - 1
              ensures Resolve(rest[j], atts).Ok?
            {
              assert rest[j] == ms[j + 1];
            }
          }
        }
    }
  }

  /** The rewrite fails exactly when a tag in the markup has no fingerprint
      token or no registered attachment with that fingerprint. */
  lemma RewriteMediaFails(html: string, atts: seq<Attachment>)
    ensures RewriteMedia(html, atts).Err? <==>
            exists i :: 0 <= i < |FindAll(html)| && Resolve(FindAll(html)[i], atts).Err?
  {
    var ms := FindAll(html);
    assert NonEmptyAll(ms);
    assert RewriteMedia(html, atts) == ApplyMatches(html, ms, atts);
    ApplyMatchesFails(html, ms, atts);
    if RewriteMedia(html, atts).Err? {
      var i :| 0 <= i < |ms| && Resolve(ms[i], atts).Err?;
      assert Resolve(FindAll(html)[i], atts).Err?;
    }
  }

  // ---------------------------------------------------------------------------
  // Markup seen as a sequence of chunks: other markup and media tags.
  // ---------------------------------------------------------------------------

  /** `Markup` is any text that cannot take part in a `<en-media` opening;
      `Media(body)` is the tag `<en-media` + body + `/>`. */
  datatype Chunk = Markup(t: string) | Media(body: string)

  function Tag(body: string): string {
    MediaOpen + body + "/>"
  }

  predicate ChunkOk(c: Chunk) {
    match c
    case Markup(t) => Inert(t, MediaOpen)
    case Media(body) => forall i :: 0 <= i < |body| ==> body[i] != '<' && body[i] != '>'
  }

  predicate ChunksOk(cs: seq<Chunk>) {
    forall i :: 0 <= i < |cs| ==> ChunkOk(cs[i])
  }

  function HtmlOf(cs: seq<Chunk>): string
    decreases |cs|
  {
    if |cs| == 0 then ""
    else (match cs[0] case Markup(t) => t case Media(b) => Tag(b)) + HtmlOf(cs[1..])
  }

  /** The tags of the media chunks, in document order. */
  function TagsOf(cs: seq<Chunk>): seq<string>
    decreases |cs|
  {
    if |cs| == 0 then []
    else (match cs[0] case Markup(_) => [] case Media(b) => [Tag(b)]) + TagsOf(cs[1..])
  }

  lemma OpenShape()
    ensures |MediaOpen| == 9 && MediaOpen[0] == '<'
    ensures forall i :: 0 < i < |MediaOpen| ==> MediaOpen[i] != '<' && MediaOpen[i] != '>'
  {
  }

  /** Facts about a well-formed tag: it matches the pattern, and `<` and `>`
      occur in it only at its two ends. */
  lemma TagShape(b: string)
    requires ChunkOk(Media(b))
    ensures IsMediaTag(Tag(b))
    ensures forall i :: 0 < i < |Tag(b)| ==> Tag(b)[i] != '<'
    ensures forall i :: 0 <= i < |Tag(b)| - 1 ==> Tag(b)[i] != '>'
    ensures Tag(b)[0] == '<' && MediaOpen <= Tag(b)
  {
    OpenShape();
    var t := Tag(b);
    forall i | 0 <= i < |t|
      ensures 0 < i ==> t[i] != '<'
      ensures i < |t| - 1 ==> t[i] != '>'
    {
      if i < |MediaOpen| {
        assert t[i] == MediaOpen[i];
      } else if i < |MediaOpen| + |b| {
        assert t[i] == b[i - |MediaOpen|];
      }
    }
  }

  /** A clash with a longer string is a clash with each of its prefixes. */
  lemma ClashPrefix(x: string, pre: string, tag: string)
    requires pre <= tag
    requires Clash(x, tag)
    ensures Clash(x, pre)
  {
    if tag <= x {
      assert pre == x[..|pre|];
    } else if |x| <= |pre| {
      assert x == pre[..|x|];
    } else {
      assert pre == x[..|pre|];
    }
  }

  /** Markup that cannot start `<en-media` cannot start any tag either. */
  lemma InertAgainstTag(t: string, tag: string)
    requires Inert(t, MediaOpen)
    requires MediaOpen <= tag
    ensures Inert(t, tag)
  {
    forall i | 0 <= i < |t|
      ensures !Clash(t[i..], tag)
    {
      if Clash(t[i..], tag) {
        ClashPrefix(t[i..], MediaOpen, tag);
      }
    }
  }

  /** A well-formed tag that is a prefix of another is that tag. */
  lemma TagPrefixEqual(b1: string, b2: string)
    requires ChunkOk(Media(b1)) && ChunkOk(Media(b2))
    requires Tag(b1) <= Tag(b2)
    ensures Tag(b1) == Tag(b2)
  {
    TagShape(b1);
    TagShape(b2);
    var t1, t2 := Tag(b1), Tag(b2);
    assert t2[|t1| - 1] == t1[|t1| - 1];
    assert t1 == t2[..|t1|];
  }

  /** Two different well-formed tags are never a prefix of one another. */
  lemma TagsNoClash(b1: string, b2: string)
    requires ChunkOk(Media(b1)) && ChunkOk(Media(b2))
    requires Tag(b1) != Tag(b2)
    ensures !Clash(Tag(b1), Tag(b2))
  {
    if Tag(b1) <= Tag(b2) {
      TagPrefixEqual(b1, b2);
    }
    if Tag(b2) <= Tag(b1) {
      TagPrefixEqual(b2, b1);
    }
  }

  lemma {:induction false} FindAllSkipsMarkup(t: string, rest: string)
    requires Inert(t, MediaOpen)
    ensures FindAll(t + rest) == FindAll(rest)
    decreases |t|
  {
    if |t| > 0 {
      var s := t + rest;
      assert t[0..] == t;
      assert !(MediaOpen <= s) by {
        if |MediaOpen| <= |t| {
          assert s[..|MediaOpen|] == t[..|MediaOpen|];
        } else {
          assert s[..|t|] == t;
        }
      }
      forall i | 0 <= i < |t[1..]|
        ensures !Clash(t[1..][i..], MediaOpen)
      {
        assert t[1..][i..] == t[i + 1..];
      }
      assert s[1..] == t[1..] + rest;
      FindAllSkipsMarkup(t[1..], rest);
    } else {
      assert t + rest == rest;
    }
  }

  lemma FindAllTakesTag(b: string, rest: string)
    requires ChunkOk(Media(b))
    ensures FindAll(Tag(b) + rest) == [Tag(b)] + FindAll(rest)
  {
    TagShape(b);
    var t := Tag(b);
    var s := t + rest;
    assert s[..|MediaOpen|] == t[..|MediaOpen|];
    var g := FirstGt(s, |MediaOpen|);
    assert s[|t| - 1] == '>';
    assert g.Some? && g.value == |t| - 1 by {
      forall k | |MediaOpen| <= k < |t| - 1
        ensures s[k] != '>'
      {
        assert s[k] == t[k];
      }
    }
    assert s[|t| - 2] == '/';
    assert MatchAt(s) == Some(|t|);
    assert s[..|t|] == t && s[|t|..] == rest;
  }

  /** `re.findall` recovers exactly the tags of the chunks, in order. */
  lemma {:induction false} FindAllChunks(cs: seq<Chunk>)
    requires ChunksOk(cs)
    ensures FindAll(HtmlOf(cs)) == TagsOf(cs)
    decreases |cs|
  {
    if |cs| > 0 {
      FindAllChunks(cs[1..]);
      match cs[0]
      case Markup(t) =>
        FindAllSkipsMarkup(t, HtmlOf(cs[1..]));
      case Media(b) =>
        FindAllTakesTag(b, HtmlOf(cs[1..]));
    }
  }

  /** Every media chunk resolves, and to a placeholder without `<`. */
  predicate Resolvable(cs: seq<Chunk>, atts: seq<Attachment>) {
    forall i :: 0 <= i < |cs| && cs[i].Media? ==>
      && Resolve(Tag(cs[i].body), atts).Ok?
      && '<' !in Resolve(Tag(cs[i].body), atts).value
  }

  /** The markup after the tags in `done` have been replaced. */
  function RenderWith(cs: seq<Chunk>, done: set<string>, atts: seq<Attachment>): string
    requires Resolvable(cs, atts)
    decreases |cs|
  {
    if |cs| == 0 then ""
    else
      (match cs[0]
       case Markup(t) => t
       case Media(b) => if Tag(b) in done then Resolve(Tag(b), atts).value else Tag(b))
      + RenderWith(cs[1..], done, atts)
  }

  /** Independent statement of the intended result: every tag is replaced by
      the link to the first attachment whose original fingerprint is the
      tag's first 32-character token; everything else stays in place. */
  function ExpectedMarkdown(cs: seq<Chunk>, atts: seq<Attachment>): string
    requires Resolvable(cs, atts)
    decreases |cs|
  {
    if |cs| == 0 then ""
    else
      (match cs[0]
       case Markup(t) => t
       case Media(b) =>
         var tag := Tag(b);
         var q := FirstRun(tag, 0).value;
         var j := FindByHash(atts, tag[q..q + TokenLength]).value;
         Placeholder(tag, atts[j].filename))
      + ExpectedMarkdown(cs[1..], atts)
  }

  function Elems(ms: seq<string>): set<string> {
    set m | m in ms
  }

  /** A tag of some chunk. */
  predicate IsTagOf(m: string, cs: seq<Chunk>) {
    exists i :: 0 <= i < |cs| && cs[i].Media? && m == Tag(cs[i].body)
  }

  lemma ReplaceOneTag(cs: seq<Chunk>, done: set<string>, atts: seq<Attachment>, b: string)
    requires ChunksOk(cs) && Resolvable(cs, atts)
    requires ChunkOk(Media(b)) && Resolve(Tag(b), atts).Ok?
    ensures Replace(RenderWith(cs, done, atts), Tag(b), Resolve(Tag(b), atts).value)
            == RenderWith(cs, done + {Tag(b)}, atts)
    decreases |cs|
  {
    var m := Tag(b);
    var ph := Resolve(m, atts).value;
    TagShape(b);
    if |cs| > 0 {
      var rest := RenderWith(cs[1..], done, atts);
      ReplaceOneTag(cs[1..], done, atts, b);
      match cs[0]
      case Markup(t) =>
        InertAgainstTag(t, m);
        ReplaceSkip(t, rest, m, ph);
      case Media(c) =>
        var tc := Tag(c);
        if tc in done {
          var x := Resolve(tc, atts).value;
          assert forall i :: 0 <= i < |x| ==> x[i] != '<';
          InertWithoutHead(x, m);
          ReplaceSkip(x, rest, m, ph);
        } else if tc == m {
          ReplaceHead(rest, m, ph);
        } else {
          TagsNoClash(c, b);
          TagShape(c);
          InertToken(tc, m);
          ReplaceSkip(tc, rest, m, ph);
        }
    }
  }

  /** One turn of the loop replaces every occurrence of one chunk's tag. */
  lemma ApplyFirstTag(cs: seq<Chunk>, done: set<string>, atts: seq<Attachment>, ms: seq<string>)
    requires ChunksOk(cs) && Resolvable(cs, atts)
    requires |ms| > 0 && NonEmptyAll(ms) && IsTagOf(ms[0], cs)
    ensures ApplyMatches(RenderWith(cs, done, atts), ms, atts)
            == ApplyMatches(RenderWith(cs, done + {ms[0]}, atts), ms[1..], atts)
  {
    var k :| 0 <= k < |cs| && cs[k].Media? && ms[0] == Tag(cs[k].body);
    assert ChunkOk(cs[k]);
    ReplaceOneTag(cs, done, atts, cs[k].body);
  }

  lemma TagsAreNonEmpty(cs: seq<Chunk>, ms: seq<string>)
    requires ChunksOk(cs)
    requires forall i :: 0 <= i < |ms| ==> IsTagOf(ms[i], cs)
    ensures NonEmptyAll(ms)
  {
  }

  lemma ElemsCons(ms: seq<string>)
    requires |ms| > 0
    ensures Elems(ms) == {ms[0]} + Elems(ms[1..])
  {
    assert ms == [ms[0]] + ms[1..];
  }

  lemma TagsOfRest(cs: seq<Chunk>, ms: seq<string>)
    requires |ms| > 0
    requires forall i :: 0 <= i < |ms| ==> IsTagOf(ms[i], cs)
    ensures forall i :: 0 <= i < |ms[1..]| ==> IsTagOf(ms[1..][i], cs)
  {
    forall i | 0 <= i < |ms[1..]|
      ensures IsTagOf(ms[1..][i], cs)
    {
      assert ms[1..][i] == ms[i + 1];
    }
  }

  lemma {:induction false} ApplyTags(cs: seq<Chunk>, done: set<string>, atts: seq<Attachment>, ms: seq<string>)
    requires ChunksOk(cs) && Resolvable(cs, atts)
    requires forall i :: 0 <= i < |ms| ==> IsTagOf(ms[i], cs)
    ensures NonEmptyAll(ms)
    ensures ApplyMatches(RenderWith(cs, done, atts), ms, atts)
            == Ok(RenderWith(cs, done + Elems(ms), atts))
    decreases |ms|
  {
    TagsAreNonEmpty(cs, ms);
    if |ms| == 0 {
      assert done + Elems(ms) == done;
    } else {
      TagsOfRest(cs, ms);
      ApplyFirstTag(cs, done, atts, ms);
      ApplyTags(cs, done + {ms[0]}, atts, ms[1..]);
      ElemsCons(ms);
      assert done + {ms[0]} + Elems(ms[1..]) == done + Elems(ms);
    }
  }

  lemma {:induction false} RenderAllDone(cs: seq<Chunk>, done: set<string>, atts: seq<Attachment>)
    requires Resolvable(cs, atts)
    requires forall i :: 0 <= i < |cs| && cs[i].Media? ==> Tag(cs[i].body) in done
    ensures RenderWith(cs, done, atts) == ExpectedMarkdown(cs, atts)
    decreases |cs|
  {
    if |cs| > 0 {
      RenderAllDone(cs[1..], done, atts);
    }
  }

  lemma {:induction false} TagsOfAreTags(cs: seq<Chunk>)
    ensures forall i :: 0 <= i < |TagsOf(cs)| ==> IsTagOf(TagsOf(cs)[i], cs)
    ensures forall i :: 0 <= i < |cs| && cs[i].Media? ==> Tag(cs[i].body) in TagsOf(cs)
    decreases |cs|
  {
    if |cs| > 0 {
      TagsOfAreTags(cs[1..]);
      var head: seq<string> := match cs[0] case Markup(_) => [] case Media(b) => [Tag(b)];
      assert TagsOf(cs) == head + TagsOf(cs[1..]);
      forall i | 0 <= i < |TagsOf(cs)|
        ensures IsTagOf(TagsOf(cs)[i], cs)
      {
        if i < |head| {
          assert IsTagOf(TagsOf(cs)[i], cs) by { assert cs[0].Media? && TagsOf(cs)[i] == Tag(cs[0].body); }
        } else {
          var j :| 0 <= j < |cs[1..]| && cs[1..][j].Media? && TagsOf(cs[1..])[i - |head|] == Tag(cs[1..][j].body);
          assert cs[j + 1] == cs[1..][j];
        }
      }
      forall i | 0 <= i < |cs| && cs[i].Media?
        ensures Tag(cs[i].body) in TagsOf(cs)
      {
        if i > 0 {
          assert cs[i] == cs[1..][i - 1];
        }
      }
    }
  }

  /** On markup built from chunks, the rewrite replaces every tag by the link
      to its attachment, keeps everything else, and does not fail. */
  lemma RewriteChunks(cs: seq<Chunk>, atts: seq<Attachment>)
    requires ChunksOk(cs) && Resolvable(cs, atts)
    ensures RewriteMedia(HtmlOf(cs), atts) == Ok(ExpectedMarkdown(cs, atts))
  {
    var ms := TagsOf(cs);
    FindAllChunks(cs);
    TagsOfAreTags(cs);
    assert RenderWith(cs, {}, atts) == HtmlOf(cs) by { RenderNothingDone(cs, atts); }
    ApplyTags(cs, {}, atts, ms);
    RenderAllDone(cs, {} + Elems(ms), atts);
  }

  lemma {:induction false} RenderNothingDone(cs: seq<Chunk>, atts: seq<Attachment>)
    requires Resolvable(cs, atts)
    ensures RenderWith(cs, {}, atts) == HtmlOf(cs)
    decreases |cs|
  {
    if |cs| > 0 {
      RenderNothingDone(cs[1..], atts);
    }
  }
}

=== FILE: note_markdown.dfy ===
/** Assembly of a note's Markdown document (`Note.create_markdown` and the
    builders it calls, `Attachment.get_attributes`), with readers that
    recover the metadata the document records. */
module NoteMarkdown {
  import opened Outcomes
  import opened Text
  import opened Records
  import opened MediaTags
  import opened Checkboxes

  // ---------------------------------------------------------------------------
  // Attribute lines: `\n>name: value  `
  // ---------------------------------------------------------------------------

  /** One metadata line, as both the note and its attachments write it. */
  function AttrLine(a: Attr): string {
    "\n>" + AttrBody(a)
  }

  /** The line after its `\n>` lead-in. */
  function AttrBody(a: Attr): string {
    a.name + ": " + a.value + "  "
  }

  function AttrLines(attrs: seq<Attr>): string
    decreases |attrs|
  {
    if |attrs| == 0 then "" else AttrLine(attrs[0]) + AttrLines(attrs[1..])
  }

  /** An attribute whose line can be read back: no colon in its name and no
      line break in either part. */
  predicate Readable(a: Attr) {
    ':' !in a.name && '\n' !in a.name && '\n' !in a.value
  }

  /** Index of the first `c` in `s` at or after `from`, or `|s|` if none. */
  function NextIndex(s: string, c: char, from: nat): (r: nat)
    requires from <= |s|
    ensures from <= r <= |s|
    ensures forall i :: from <= i < r ==> s[i] != c
    ensures r < |s| ==> s[r] == c
    decreases |s| - from
  {
    if from == |s| || s[from] == c then from else NextIndex(s, c, from + 1)
  }

  lemma NextIndexIs(s: string, c: char, from: nat, r: nat)
    requires from <= r <= |s|
    requires forall i :: from <= i < r ==> s[i] != c
    requires r < |s| ==> s[r] == c
    ensures NextIndex(s, c, from) == r
  {
  }

  /** Reads the body of one line (after `\n>`): the name runs up to the first
      colon, then `: `, the value, and two closing spaces. */
  function ReadAttr(line: string): Option<Attr> {
    var k := NextIndex(line, ':', 0);
    if k + 4 <= |line| && line[k + 1] == ' ' && line[|line| - 2..] == "  " then
      Some(Attr(line[..k], line[k + 2..|line| - 2]))
    else None
  }

  /** Reads a run of attribute lines. */
  function ReadAttrLines(s: string): Option<seq<Attr>>
    decreases |s|
  {
    if |s| == 0 then Some([])
    else if |s| < 2 || s[..2] != "\n>" then None
    else
      var j := NextIndex(s, '\n', 2);
      match ReadAttr(s[2..j])
      case None => None
      case Some(a) =>
        match ReadAttrLines(s[j..])
        case None => None
        case Some(rest) => Some([a] + rest)
  }

  lemma ReadOneAttr(a: Attr)
    requires Readable(a)
    ensures ReadAttr(AttrBody(a)) == Some(a)
  {
    var line := a.name + ": " + a.value + "  ";
    var k := |a.name|;
    assert line[k] == ':';
    forall i | 0 <= i < k
      ensures line[i] != ':'
    {
      assert line[i] == a.name[i];
    }
    NextIndexIs(line, ':', 0, k);
    assert line[..k] == a.name;
    assert line[k + 2..|line| - 2] == a.value;
  }

  /** The body of a readable line holds no line break. */
  lemma BodyWithoutBreak(a: Attr)
    requires Readable(a)
    ensures forall i :: 0 <= i < |AttrBody(a)| ==> AttrBody(a)[i] != '\n'
  {
    var body := a.name + ": " + a.value + "  ";
    forall i | 0 <= i < |body|
      ensures body[i] != '\n'
    {
      if i < |a.name| {
        assert body[i] == a.name[i];
      } else if |a.name| + 2 <= i < |a.name| + 2 + |a.value| {
        assert body[i] == a.value[i - |a.name| - 2];
      }
    }
  }

  lemma AttrLineShape(a: Attr, rest: string)
    requires Readable(a)
    requires |rest| == 0 || rest[0] == '\n'
    ensures NextIndex(AttrLine(a) + rest, '\n', 2) == |AttrLine(a)|
    ensures (AttrLine(a) + rest)[..2] == "\n>"
    ensures (AttrLine(a) + rest)[2..|AttrLine(a)|] == AttrBody(a)
    ensures (AttrLine(a) + rest)[|AttrLine(a)|..] == rest
  {
    var body := AttrBody(a);
    var s := "\n>" + body + rest;
    SliceThree("\n>", body, rest);
    BodyWithoutBreak(a);
    forall i | 2 <= i < 2 + |body|
      ensures s[i] != '\n'
    {
      assert s[i] == s[2..2 + |body|][i - 2];
    }
    if |rest| > 0 {
      assert s[2 + |body|] == s[2 + |body|..][0];
    }
    NextIndexIs(s, '\n', 2, 2 + |body|);
  }

  lemma AttrLinesStart(attrs: seq<Attr>)
    ensures |AttrLines(attrs)| == 0 || AttrLines(attrs)[0] == '\n'
  {
  }

  /** Attribute lines read back to the attributes they were written from, in
      the same order. */
  lemma {:induction false} ReadAttrLinesRoundTrip(attrs: seq<Attr>)
    requires forall i :: 0 <= i < |attrs| ==> Readable(attrs[i])
    ensures ReadAttrLines(AttrLines(attrs)) == Some(attrs)
    decreases |attrs|
  {
    if |attrs| > 0 {
      var a, rest := attrs[0], AttrLines(attrs[1..]);
      AttrLinesStart(attrs[1..]);
      AttrLineShape(a, rest);
      ReadOneAttr(a);
      ReadAttrLinesRoundTrip(attrs[1..]);
      assert attrs == [a] + attrs[1..];
    }
  }

  lemma {:induction false} AttrLinesAppend(xs: seq<Attr>, ys: seq<Attr>)
    ensures AttrLines(xs + ys) == AttrLines(xs) + AttrLines(ys)
    decreases |xs|
  {
    if |xs| == 0 {
      assert xs + ys == ys;
    } else {
      assert (xs + ys)[1..] == xs[1..] + ys;
      AttrLinesAppend(xs[1..], ys);
    }
  }

  // ---------------------------------------------------------------------------
  // The attachment section
  // ---------------------------------------------------------------------------

  /** The plain Markdown link to an attachment's file. */
  function Link(filename: string): string {
    "\n[" + filename + "](" + MediaPath + "/" + filename + ")"
  }

  /** `Attachment.get_attributes`: the link; then, only when attributes were
      captured, the payload fingerprint, the attributes and a blank line. */
  function AttachmentBlock(a: Attachment): string {
    Link(a.filename)
    + if |a.attributes| > 0 then "\n>hash: " + a.hash + "  " + AttrLines(a.attributes) + "\n" else ""
  }

  /** The fingerprint line is an ordinary attribute line named `hash`. */
  lemma HashLine(h: string)
    requires '\n' !in h
    ensures AttrLines([Attr("hash", h)]) == "\n>hash: " + h + "  "
    ensures Readable(Attr("hash", h))
  {
    LineRegrouped("hash", h, "\n>hash: ");
    assert AttrLines([Attr("hash", h)]) == AttrLine(Attr("hash", h)) + AttrLines([]);
    assert ':' !in "hash" && '\n' !in "hash";
  }

  lemma ReadableCons(x: Attr, attrs: seq<Attr>)
    requires Readable(x)
    requires forall i :: 0 <= i < |attrs| ==> Readable(attrs[i])
    ensures forall i :: 0 <= i < |[x] + attrs| ==> Readable(([x] + attrs)[i])
  {
    forall i | 0 <= i < |[x] + attrs|
      ensures Readable(([x] + attrs)[i])
    {
      if i > 0 {
        assert ([x] + attrs)[i] == attrs[i - 1];
      }
    }
  }

  lemma Regroup(a: string, b: string, c: string)
    ensures a + (b + c) == a + b + c
  {
  }

  /** A block is its link alone when no attribute was captured; otherwise
      its metadata lines read back to the fingerprint followed by the
      attributes in capture order. */
  lemma AttachmentBlockReadBack(a: Attachment)
    requires '\n' !in a.hash
    requires forall i :: 0 <= i < |a.attributes| ==> Readable(a.attributes[i])
    ensures |a.attributes| == 0 ==> AttachmentBlock(a) == Link(a.filename)
    ensures |a.attributes| > 0 ==>
              exists meta :: AttachmentBlock(a) == Link(a.filename) + meta + "\n"
                             && ReadAttrLines(meta) == Some([Attr("hash", a.hash)] + a.attributes)
  {
    if |a.attributes| > 0 {
      var x := Attr("hash", a.hash);
      var all := [x] + a.attributes;
      HashLine(a.hash);
      ReadableCons(x, a.attributes);
      ReadAttrLinesRoundTrip(all);
      AttrLinesAppend([x], a.attributes);
      var meta := AttrLines(all);
      assert meta == "\n>hash: " + a.hash + "  " + AttrLines(a.attributes);
      Regroup(Link(a.filename), meta, "\n");
    }
  }

  function Blocks(atts: seq<Attachment>): string
    decreases |atts|
  {
    if |atts| == 0 then "" else AttachmentBlock(atts[0]) + Blocks(atts[1..])
  }

  /** Blocks are written in registration order: the blocks of a longer list
      extend those of its prefix. */
  lemma {:induction false} BlocksAppend(xs: seq<Attachment>, ys: seq<Attachment>)
    ensures Blocks(xs + ys) == Blocks(xs) + Blocks(ys)
    decreases |xs|
  {
    if |xs| == 0 {
      assert xs + ys == ys;
    } else {
      assert (xs + ys)[1..] == xs[1..] + ys;
      BlocksAppend(xs[1..], ys);
    }
  }

  /** `Note.create_markdown_attachments` */
  function AttachmentsSection(atts: seq<Attachment>): string {
    if |atts| > 0 then "\n---" + "\n### ATTACHMENTS" + Blocks(atts) else ""
  }

  // ---------------------------------------------------------------------------
  // The tag section
  // ---------------------------------------------------------------------------

  function Braced(tags: seq<string>): (r: seq<string>)
    ensures |r| == |tags|
    ensures forall i :: 0 <= i < |tags| ==> r[i] == "{" + tags[i] + "}"
    decreases |tags|
  {
    if |tags| == 0 then [] else ["{" + tags[0] + "}"] + Braced(tags[1..])
  }

  /** The tag line: every tag in braces, two spaces between tags. */
  function TagLine(tags: seq<string>): string {
    Join("  ", Braced(tags))
  }

  /** `Note.create_markdown_note_tags` */
  function TagsSection(tags: seq<string>): string {
    "\n\n---" + "\n### TAGS\n" + TagLine(tags) + "\n"
  }

  /** Reads a non-empty tag line back into its tags. */
  function ReadTags(s: string): Option<seq<string>>
    decreases |s|
  {
    if |s| < 2 || s[0] != '{' then None
    else
      var j := NextIndex(s, '}', 1);
      if j == |s| then None
      else if j + 1 == |s| then Some([s[1..j]])
      else if j + 3 <= |s| && s[j + 1..j + 3] == "  " then
        match ReadTags(s[j + 3..])
        case None => None
        case Some(ts) => Some([s[1..j]] + ts)
      else None
  }

  lemma BracedShape(t: string, rest: string)
    requires '}' !in t
    ensures ("{" + t + "}" + rest)[0] == '{'
    ensures NextIndex("{" + t + "}" + rest, '}', 1) == |t| + 1
    ensures ("{" + t + "}" + rest)[1..|t| + 1] == t
    ensures ("{" + t + "}" + rest)[|t| + 2..] == rest
  {
    var s := "{" + t + "}" + rest;
    forall i | 1 <= i < |t| + 1
      ensures s[i] != '}'
    {
      assert s[i] == t[i - 1];
    }
    NextIndexIs(s, '}', 1, |t| + 1);
  }

  /** A tag line reads back to its tags when no tag contains a closing brace. */
  lemma {:induction false} ReadTagsRoundTrip(tags: seq<string>)
    requires |tags| > 0
    requires forall i :: 0 <= i < |tags| ==> '}' !in tags[i]
    ensures ReadTags(TagLine(tags)) == Some(tags)
    decreases |tags|
  {
    var t := tags[0];
    var b := Braced(tags);
    if |tags| == 1 {
      assert b == ["{" + t + "}"];
      assert TagLine(tags) == "{" + t + "}";
      BracedShape(t, "");
      assert "{" + t + "}" + "" == "{" + t + "}";
      var s := TagLine(tags);
      assert NextIndex(s, '}', 1) + 1 == |s|;
      assert s[1..|t| + 1] == t;
      assert tags == [t];
    } else {
      assert Braced(tags[1..]) == b[1..];
      var rest := "  " + TagLine(tags[1..]);
      assert TagLine(tags) == "{" + t + "}" + rest;
      BracedShape(t, rest);
      var s := TagLine(tags);
      var j := |t| + 1;
      assert s[j + 1..j + 3] == "  ";
      assert s[j + 3..] == TagLine(tags[1..]);
      ReadTagsRoundTrip(tags[1..]);
      assert tags == [t] + tags[1..];
    }
  }

  /** Adding a tag extends the line by two spaces and the braced tag. */
  lemma {:induction false} TagLineAppend(tags: seq<string>, t: string)
    requires |tags| > 0
    ensures TagLine(tags + [t]) == TagLine(tags) + "  {" + t + "}"
    decreases |tags|
  {
    var b := Braced(tags + [t]);
    assert b[1..] == Braced(tags[1..] + [t]) by {
      assert (tags + [t])[1..] == tags[1..] + [t];
    }
    if |tags| == 1 {
      assert Braced(tags[1..] + [t]) == ["{" + t + "}"] by {
        assert tags[1..] + [t] == [t];
      }
      var b0, bt := "{" + tags[0] + "}", "{" + t + "}";
      assert b == [b0, bt];
      assert b[1..] == [bt];
      assert Braced(tags) == [b0];
      assert Join("  ", b[1..]) == bt;
      assert Join("  ", b) == b[0] + "  " + Join("  ", b[1..]);
      assert TagLine(tags + [t]) == b0 + "  " + bt;
      assert b0 + "  " + bt == b0 + "  {" + t + "}";
    } else {
      TagLineAppend(tags[1..], t);
      var b0 := "{" + tags[0] + "}";
      assert Braced(tags)[1..] == Braced(tags[1..]);
      var mid := TagLine(tags[1..]);
      assert TagLine(tags) == b0 + "  " + mid;
      assert TagLine(tags + [t]) == b0 + "  " + (mid + "  {" + t + "}");
      assert b0 + "  " + (mid + "  {" + t + "}") == b0 + "  " + mid + "  {" + t + "}";
    }
  }

  // ---------------------------------------------------------------------------
  // The note attribute section
  // ---------------------------------------------------------------------------

  const NoteAttrHeading := "\n---" + "\n### NOTE ATTRIBUTES"

  /** `Note.create_markdown_note_attr`: the heading, the two date lines
      (`\n>Created Date: <time>  ` and `\n>Last Evernote Update Date: <time>  `,
      spelled like any other attribute line) and the captured attributes. */
  function NoteAttrSection(note: Note, env: Env): string {
    NoteAttrHeading
    + AttrLine(Attr("Created Date", env.noteTime(note.created)))
    + AttrLine(Attr("Last Evernote Update Date", env.noteTime(note.updated)))
    + AttrLines(note.attributes)
  }

  /** The dates and attributes the section records, in order. */
  function NoteAttrs(note: Note, env: Env): seq<Attr> {
    [Attr("Created Date", env.noteTime(note.created)),
     Attr("Last Evernote Update Date", env.noteTime(note.updated))]
    + note.attributes
  }

  lemma NoteAttrsReadable(note: Note, env: Env)
    requires '\n' !in env.noteTime(note.created) && '\n' !in env.noteTime(note.updated)
    requires forall i :: 0 <= i < |note.attributes| ==> Readable(note.attributes[i])
    ensures forall i :: 0 <= i < |NoteAttrs(note, env)| ==> Readable(NoteAttrs(note, env)[i])
  {
    var all := NoteAttrs(note, env);
    forall i | 0 <= i < |all|
      ensures Readable(all[i])
    {
      if i < 2 {
        DateLabelsReadable();
      } else {
        assert all[i] == note.attributes[i - 2];
      }
    }
  }

  lemma DateLabelsReadable()
    ensures ':' !in "Created Date" && '\n' !in "Created Date"
    ensures ':' !in "Last Evernote Update Date" && '\n' !in "Last Evernote Update Date"
  {
  }

  lemma NoteAttrSectionLines(note: Note, env: Env)
    ensures NoteAttrSection(note, env) == NoteAttrHeading + AttrLines(NoteAttrs(note, env))
  {
    var c := Attr("Created Date", env.noteTime(note.created));
    var u := Attr("Last Evernote Update Date", env.noteTime(note.updated));
    AttrLinesAppend([c, u], note.attributes);
    TwoLines(c, u);
    var l0, l1, rest := AttrLine(c), AttrLine(u), AttrLines(note.attributes);
    Regroup(NoteAttrHeading, l0 + l1, rest);
    Regroup(NoteAttrHeading, l0, l1);
  }

  lemma TwoLines(x: Attr, y: Attr)
    ensures AttrLines([x, y]) == AttrLine(x) + AttrLine(y)
  {
    assert [x, y][1..] == [y];
    assert AttrLines([y]) == AttrLine(y) + AttrLines([]);
  }

  /** Below its heading the section reads back to the two dates followed by
      the note's attributes in capture order. */
  lemma NoteAttrReadBack(note: Note, env: Env)
    requires '\n' !in env.noteTime(note.created) && '\n' !in env.noteTime(note.updated)
    requires forall i :: 0 <= i < |note.attributes| ==> Readable(note.attributes[i])
    ensures exists lines :: NoteAttrSection(note, env) == NoteAttrHeading + lines
              && ReadAttrLines(lines) == Some([Attr("Created Date", env.noteTime(note.created)),
                                                Attr("Last Evernote Update Date", env.noteTime(note.updated))]
                                               + note.attributes)
  {
    NoteAttrsReadable(note, env);
    ReadAttrLinesRoundTrip(NoteAttrs(note, env));
    NoteAttrSectionLines(note, env);
  }

  /** A line spelled with its lead-in, name and separator as one literal is
      the same line. */
  lemma LineRegrouped(name: string, v: string, head: string)
    requires head == "\n>" + name + ": "
    ensures AttrLine(Attr(name, v)) == head + v + "  "
  {
    var p, n, q, w := "\n>", name, ": ", "  ";
    assert p + (n + q + v + w) == (p + n + q) + v + w;
  }

  /** The date lines are spelled as `note.py` spells them. */
  lemma DateLineSpelling(c: string, u: string)
    ensures AttrLine(Attr("Created Date", c)) == "\n>Created Date: " + c + "  "
    ensures AttrLine(Attr("Last Evernote Update Date", u)) == "\n>Last Evernote Update Date: " + u + "  "
  {
    LineRegrouped("Created Date", c, "\n>Created Date: ");
    LineRegrouped("Last Evernote Update Date", u, "\n>Last Evernote Update Date: ");
  }

  // ---------------------------------------------------------------------------
  // The document
  // ---------------------------------------------------------------------------

  /** `Note.clean_html`: media tags first, then checkboxes, then the title
      as a level-one heading in front (the title itself is not rewritten). */
  function CleanHtml(note: Note): (r: Result<string, MediaError>)
    ensures r.Err? <==> RewriteMedia(note.html, note.attachments).Err?
    ensures r.Err? ==> r.error == RewriteMedia(note.html, note.attachments).error
  {
    var media :- RewriteMedia(note.html, note.attachments);
    Ok("<h1>" + note.title + "</h1>" + ConvertCheckboxes(media))
  }

  /** Everything after the rendered body: attachments, tags only when there
      are any, then the note attributes. */
  function Metadata(note: Note, env: Env): string {
    AttachmentsSection(note.attachments)
    + (if |note.tags| > 0 then TagsSection(note.tags) else "")
    + NoteAttrSection(note, env)
  }

  /** `Note.create_markdown`, without writing the file. */
  function CreateMarkdown(note: Note, env: Env): (r: Result<string, MediaError>)
    ensures r.Err? <==> RewriteMedia(note.html, note.attachments).Err?
    ensures r.Err? ==> r.error == RewriteMedia(note.html, note.attachments).error
    ensures r.Ok? ==> exists body :: CleanHtml(note) == Ok(body) && r.value == env.render(body) + Metadata(note, env)
  {
    var body :- CleanHtml(note);
    Ok(env.render(body) + Metadata(note, env))
  }

  /** A note without attachments, tags or attributes ends in the two date
      lines alone. */
  lemma BareMetadata(note: Note, env: Env)
    requires |note.attachments| == 0 && |note.tags| == 0 && |note.attributes| == 0
    ensures Metadata(note, env) == NoteAttrHeading
              + "\n>Created Date: " + env.noteTime(note.created) + "  "
              + "\n>Last Evernote Update Date: " + env.noteTime(note.updated) + "  "
  {
    DateLineSpelling(env.noteTime(note.created), env.noteTime(note.updated));
    assert AttachmentsSection(note.attachments) == "";
    assert AttrLines(note.attributes) == "";
  }

  /** Markup made only of text and to-do tags (no media tag) becomes the
      heading followed by the intended checkbox text. */
  lemma TodoNoteMarkdown(note: Note, ps: seq<Piece>, env: Env)
    requires WellFormed(ps) && note.html == Html(ps)
    requires Inert(note.html, MediaOpen)
    ensures CreateMarkdown(note, env)
            == Ok(env.render("<h1>" + note.title + "</h1>" + ExpectedAll(ps)) + Metadata(note, env))
  {
    NoMediaUnchanged(note.html, note.attachments);
    ConvertPieces(ps);
  }

  /** Markup made of text and resolvable media tags becomes the heading
      followed by the placeholders in the tags' places, then checkbox
      conversion. */
  lemma MediaNoteHtml(note: Note, cs: seq<Chunk>)
    requires ChunksOk(cs) && Resolvable(cs, note.attachments) && note.html == HtmlOf(cs)
    ensures CleanHtml(note)
            == Ok("<h1>" + note.title + "</h1>" + ConvertCheckboxes(ExpectedMarkdown(cs, note.attachments)))
  {
    RewriteChunks(cs, note.attachments);
  }
}

=== FILE: note_naming.dfy ===
/** Choice of a note's title fallback, its sub-directory and its Markdown
    file name (`Note.create_filename`, `Note.get_separate_dir`, `Note.set_title`). */
module NoteNaming {
  import opened Text
  import opened Records
  import AttachmentNaming

  /** The title is cut to this many characters before it is sanitised. */
  const MaxTitleLength := 128

  /** Some character of `s` is a letter or a digit. */
  predicate HasAlnum(s: string, env: Env) {
    exists i :: 0 <= i < |s| && env.isAlnum(s[i])
  }

  /** The title a note is filed under: its own title when that holds a letter
      or digit, otherwise `_` followed by the note's identifier. */
  function NamingTitle(title: string, uuid: string, env: Env): string {
    if HasAlnum(title, env) then title else "_" + uuid
  }

  /** The title is replaced only when it has no letter or digit. Provided
      the identifier holds a letter or digit (a UUID always does), the title
      a note ends up with always holds one, and applying the fallback a
      second time changes nothing. */
  lemma NamingTitleSettles(title: string, uuid: string, env: Env)
    requires HasAlnum(uuid, env)
    ensures NamingTitle(title, uuid, env) != title ==> !HasAlnum(title, env)
    ensures HasAlnum(NamingTitle(title, uuid, env), env)
    ensures NamingTitle(NamingTitle(title, uuid, env), uuid, env) == NamingTitle(title, uuid, env)
  {
    if !HasAlnum(title, env) {
      var i :| 0 <= i < |uuid| && env.isAlnum(uuid[i]);
      assert ("_" + uuid)[i + 1] == uuid[i];
    }
  }

  /** The directory component under the export path: the title for a note
      with attachments, nothing for one without. */
  function SeparateDir(title: string, attachments: seq<Attachment>): string {
    if |attachments| > 0 then title else ""
  }

  /** The base of the Markdown file name before the collision check. */
  function Stem(title: string, env: Env): string {
    env.urlSafe(Take(title, MaxTitleLength)) + ".md"
  }

  /** `Note.create_filename`: the settled title and the chosen file name. */
  function CreateFilename(title: string, uuid: string, path: string,
                          attachments: seq<Attachment>, env: Env): (string, string) {
    var t := NamingTitle(title, uuid, env);
    (t, env.checkForDouble(env.makeDirCheck(env.join(path, SeparateDir(t, attachments))), Stem(t, env)))
  }

  /** Only the first 128 characters of a title reach the file name: two
      titles that hold a letter or digit and agree that far are filed under
      the same candidate in the same directory, and any clash between them is
      left to the collision check. */
  lemma TitlesAgreeingOnPrefix(t1: string, t2: string, uuid: string, path: string,
                               attachments: seq<Attachment>, env: Env)
    requires HasAlnum(t1, env) && HasAlnum(t2, env)
    requires Take(t1, MaxTitleLength) == Take(t2, MaxTitleLength)
    requires |attachments| == 0
    ensures CreateFilename(t1, uuid, path, attachments, env).1
            == CreateFilename(t2, uuid, path, attachments, env).1
  {
  }

  /** Titles without a letter or digit are all filed alike: the name depends
      on the identifier only. */
  lemma BlankTitlesUseIdentifier(t1: string, t2: string, uuid: string, path: string,
                                 attachments: seq<Attachment>, env: Env)
    requires !HasAlnum(t1, env) && !HasAlnum(t2, env)
    ensures CreateFilename(t1, uuid, path, attachments, env)
            == CreateFilename(t2, uuid, path, attachments, env)
  {
  }

  /** `Note.set_title`: store the title, then name the file. The title is
      replaced by its fallback and the file name is set; nothing else changes. */
  function SetTitle(note: Note, title: string, env: Env): (r: Note)
    ensures r.title == NamingTitle(title, note.uuid, env)
    ensures r.(title := note.title, filename := note.filename) == note
  {
    var named := CreateFilename(title, note.uuid, note.path, note.attachments, env);
    note.(title := named.0, filename := named.1)
  }

  /** The parser sets the title before it adds any attachment, so the note's
      file is always looked for in the export path itself, even for a note
      whose Markdown is later written into its title's sub-directory. */
  lemma NamedBeforeAttachments(note: Note, title: string, env: Env)
    requires |note.attachments| == 0
    ensures SetTitle(note, title, env).filename
            == env.checkForDouble(env.makeDirCheck(env.join(note.path, "")),
                                  Stem(NamingTitle(title, note.uuid, env), env))
  {
  }

  /** For a note with attachments, the directory its Markdown goes into is
      the parent of the directory its attachments are written to, so the
      relative links `media/<file>` resolve. The attachment's directory is
      built from the attachment's own path (line 255 of `note.py`); here it
      is taken to be the note's path, the one the attachment was created
      with. The fact follows by unfolding the two definitions. */
  lemma MarkdownBesideMedia(note: Note, env: Env)
    requires |note.attachments| > 0
    ensures AttachmentNaming.MediaDir(note.path, note.title, env)
            == env.join(env.join(note.path, SeparateDir(note.title, note.attachments)), MediaPath)
  {
  }
}

=== FILE: outcomes.dfy ===
/** Failure-compatible wrappers used for the error paths of the exporter:
    a Python exception that aborts the run becomes an `Err` value. */
module Outcomes {

  datatype Option<+T> = None | Some(value: T)

  datatype Result<+T, +E> = Ok(value: T) | Err(error: E) {

    predicate IsFailure() {
      Err?
    }

    function PropagateFailure<U>(): Result<U, E>
      requires Err?
    {
      Err(error)
    }

    function Extract(): T
      requires Ok?
    {
      value
    }
  }
}

=== FILE: records.dfy ===
/** The exporter's entities as immutable records, and the foreign services
    (helpers module, os.path, html2text, mimetypes, datetime) as uninterpreted
    functions: nothing is assumed about them beyond their types. */
module Records {
  import opened Outcomes

  /** Name of the per-note sub-directory holding attachment files. */
  const MediaPath := "media"

  /** A point in time (a Python `datetime`); only ever formatted through `Env`. */
  datatype Stamp = Stamp(seconds: int)

  /** One `(attribute-name, value)` pair captured by the parser. */
  datatype Attr = Attr(name: string, value: string)

  /** A finalised attachment as its note sees it: the assigned file name,
      the fingerprint of the decoded payload (used to match `<en-media>` tags)
      and the fingerprint of the bytes on disk (shown in the metadata block). */
  datatype Attachment = Attachment(
    filename: string,
    originalHash: string,
    hash: string,
    attributes: seq<Attr>)

  /** A note once the parser has filled it in. `title` is the title after the
      fallback substitution made when the file name was chosen. */
  datatype Note = Note(
    title: string,
    html: string,
    created: Stamp,
    updated: Stamp,
    tags: seq<string>,
    attributes: seq<Attr>,
    path: string,
    attachments: seq<Attachment>,
    filename: string,
    uuid: string)

  /** The foreign functions the core calls. */
  datatype Env = Env(
    /** helpers.url_safe_string */
    urlSafe: string -> string,
    /** helpers.check_for_double(directory, name) */
    checkForDouble: (string, string) -> string,
    /** helpers.make_dir_check(directory): the directory, created if missing */
    makeDirCheck: string -> string,
    /** os.path.join of two components */
    join: (string, string) -> string,
    /** str.isalpha() or str.isdigit() on one character */
    isAlnum: char -> bool,
    /** html2text.HTML2Text().handle */
    render: string -> string,
    /** mimetypes.guess_extension(mime, False), None for an unknown type */
    guessExtension: string -> Option<string>,
    /** strftime("%Y-%m-%d %H:%M:%S"), used in the note's metadata block */
    noteTime: Stamp -> string,
    /** strftime("%Y-%m-%d_%H-%M-%S"), used for date-derived attachment names */
    fileStamp: Stamp -> string)
}

=== FILE: text.dfy ===
/** The Python string operations the exporter relies on, stated over `seq<char>`:
    `str.replace`, `str.rstrip`, `in`, slicing and `str.join`. */
module Text {

  /** Python's `s.replace(take, give)` for a non-empty `take`: occurrences are
      found left to right and do not overlap; the scan resumes after each
      replaced occurrence, so `give` is never rescanned. */
  function Replace(s: string, take: string, give: string): string
    requires |take| > 0
    decreases |s|
  {
    if |s| == 0 then ""
    else if take <= s then give + Replace(s[|take|..], take, give)
    else [s[0]] + Replace(s[1..], take, give)
  }

  /** Python's `sub in s`. */
  predicate Occurs(sub: string, s: string) {
    exists i :: 0 <= i <= |s| && sub <= s[i..]
  }

  /** One of the two strings is a prefix of the other. */
  predicate Clash(x: string, y: string) {
    x <= y || y <= x
  }

  /** No suffix of `x` can start an occurrence of `take`, whatever text follows `x`. */
  predicate Inert(x: string, take: string) {
    forall i :: 0 <= i < |x| ==> !Clash(x[i..], take)
  }

  /** Python's `s[:n]` for `n >= 0`. */
  function Take(s: string, n: nat): (r: string)
    ensures r <= s
    ensures |r| == if |s| < n then |s| else n
  {
    if |s| < n then s else s[..n]
  }

  /** Python's `s[n:]` for `n >= 0`. */
  function Drop(s: string, n: nat): (r: string)
    ensures |s| <= n ==> r == ""
    ensures |s| > n ==> s == s[..n] + r
  {
    if |s| <= n then "" else s[n..]
  }

  /** Python's `s.rstrip(chars)`: removes the longest suffix whose characters
      all belong to the SET `cs` (not a suffix string). */
  function RStrip(s: string, cs: set<char>): (r: string)
    ensures r <= s
    ensures |r| > 0 ==> r[|r| - 1] !in cs
    ensures forall i :: |r| <= i < |s| ==> s[i] in cs
    decreases |s|
  {
    if |s| > 0 && s[|s| - 1] in cs then RStrip(s[..|s| - 1], cs) else s
  }

  /** Python's `sep.join(xs)`. */
  function Join(sep: string, xs: seq<string>): string
    decreases |xs|
  {
    if |xs| == 0 then ""
    else if |xs| == 1 then xs[0]
    else xs[0] + sep + Join(sep, xs[1..])
  }

  /** The concatenation of a sequence of strings (Python's `''.join(xs)`). */
  function Concat(xs: seq<string>): string
    decreases |xs|
  {
    if |xs| == 0 then "" else xs[0] + Concat(xs[1..])
  }

  // ---------------------------------------------------------------------------
  // Facts about Replace
  // ---------------------------------------------------------------------------

  /** Replacing a string that does not occur leaves the text unchanged. */
  lemma {:induction false} ReplaceAbsent(s: string, take: string, give: string)
    requires |take| > 0
    requires !Occurs(take, s)
    ensures Replace(s, take, give) == s
    decreases |s|
  {
    if |s| > 0 {
      assert s[0..] == s;
      assert !(take <= s);
      assert !Occurs(take, s[1..]) by {
        forall i | 0 <= i <= |s[1..]|
          ensures !(take <= s[1..][i..])
        {
          assert s[1..][i..] == s[i + 1..];
        }
      }
      ReplaceAbsent(s[1..], take, give);
    }
  }

  /** A replacement that is not longer than what it replaces never lengthens
      the text, and shortens it strictly as soon as one occurrence exists. */
  lemma {:induction false} ReplaceLength(s: string, take: string, give: string)
    requires |take| > 0 && |give| <= |take|
    ensures |Replace(s, take, give)| <= |s|
    ensures |give| < |take| && Occurs(take, s) ==> |Replace(s, take, give)| < |s|
    decreases |s|
  {
    if |s| == 0 {
    } else if take <= s {
      ReplaceLength(s[|take|..], take, give);
    } else {
      ReplaceLength(s[1..], take, give);
      if Occurs(take, s) {
        var i :| 0 <= i <= |s| && take <= s[i..];
        assert i != 0 by { assert s[0..] == s; }
        assert s[1..][i - 1..] == s[i..];
        assert Occurs(take, s[1..]);
      }
    }
  }

  /** An inert prefix passes through a replacement untouched, and the
      replacement continues on the rest exactly as if it stood alone. */
  lemma {:induction false} ReplaceSkip(x: string, y: string, take: string, give: string)
    requires |take| > 0
    requires Inert(x, take)
    ensures Replace(x + y, take, give) == x + Replace(y, take, give)
    decreases |x|
  {
    if |x| > 0 {
      var s := x + y;
      assert x[0..] == x;
      assert !Clash(x, take);
      assert !(take <= s) by {
        if |take| <= |x| {
          assert s[..|take|] == x[..|take|];
        } else {
          assert s[..|x|] == x;
        }
      }
      assert s[1..] == x[1..] + y;
      forall i | 0 <= i < |x[1..]|
        ensures !Clash(x[1..][i..], take)
      {
        assert x[1..][i..] == x[i + 1..];
      }
      assert Inert(x[1..], take);
      ReplaceSkip(x[1..], y, take, give);
      calc {
        Replace(s, take, give);
        [s[0]] + Replace(s[1..], take, give);
        [x[0]] + Replace(x[1..] + y, take, give);
        [x[0]] + (x[1..] + Replace(y, take, give));
        { assert x == [x[0]] + x[1..]; }
        x + Replace(y, take, give);
      }
    } else {
      assert x + y == y;
    }
  }

  /** The text to be replaced, followed by anything, is replaced at once. */
  lemma ReplaceHead(y: string, take: string, give: string)
    requires |take| > 0
    ensures Replace(take + y, take, give) == give + Replace(y, take, give)
  {
    assert (take + y)[|take|..] == y;
  }

  /** Text that never contains the first character of `take` is inert. */
  lemma InertWithoutHead(x: string, take: string)
    requires |take| > 0
    requires forall i :: 0 <= i < |x| ==> x[i] != take[0]
    ensures Inert(x, take)
  {
    forall i | 0 <= i < |x|
      ensures !Clash(x[i..], take)
    {
      assert x[i..][0] == x[i];
    }
  }

  /** A token that is not prefix-related to `take` and has `take`'s first
      character at most in its first position is inert. */
  lemma InertToken(x: string, take: string)
    requires |x| > 0 && |take| > 0
    requires !Clash(x, take)
    requires forall i :: 1 <= i < |x| ==> x[i] != take[0]
    ensures Inert(x, take)
  {
    forall i | 0 <= i < |x|
      ensures !Clash(x[i..], take)
    {
      if i == 0 {
        assert x[i..] == x;
      } else {
        assert x[i..][0] == x[i];
      }
    }
  }

  /** Replacing one character by another, position by position. */
  lemma {:induction false} ReplaceCharPointwise(s: string, c: char, d: char)
    ensures |Replace(s, [c], [d])| == |s|
    ensures forall i :: 0 <= i < |s| ==>
              Replace(s, [c], [d])[i] == if s[i] == c then d else s[i]
    decreases |s|
  {
    if |s| > 0 {
      ReplaceCharPointwise(s[1..], c, d);
      var r := Replace(s, [c], [d]);
      if [c] <= s {
        assert r == [d] + Replace(s[1..], [c], [d]);
      } else {
        assert r == [s[0]] + Replace(s[1..], [c], [d]);
      }
    }
  }

  // ---------------------------------------------------------------------------
  // Slicing
  // ---------------------------------------------------------------------------

  /** The three parts of a concatenation are recovered by slicing. */
  lemma SliceThree(p: string, b: string, r: string)
    ensures (p + b + r)[..|p|] == p
    ensures (p + b + r)[|p|..|p| + |b|] == b
    ensures (p + b + r)[|p| + |b|..] == r
  {
  }

  // ---------------------------------------------------------------------------
  // Facts about RStrip
  // ---------------------------------------------------------------------------

  /** The three properties in RStrip's contract determine its result: it is
      the one prefix of `s` that ends outside `cs` with only `cs` after it. */
  lemma RStripUnique(s: string, cs: set<char>, p: string)
    requires p <= s
    requires |p| > 0 ==> p[|p| - 1] !in cs
    requires forall i :: |p| <= i < |s| ==> s[i] in cs
    ensures p == RStrip(s, cs)
  {
    var r := RStrip(s, cs);
    assert |p| == |r|;
    assert p == s[..|p|] && r == s[..|r|];
  }

  /** Stripping a suffix that lies entirely inside the set is the same as
      stripping the whole text. */
  lemma {:induction false} RStripAppend(x: string, y: string, cs: set<char>)
    requires forall i :: 0 <= i < |y| ==> y[i] in cs
    ensures RStrip(x + y, cs) == RStrip(x, cs)
  {
    var r := RStrip(x, cs);
    forall i | |r| <= i < |x + y|
      ensures (x + y)[i] in cs
    {
      if i >= |x| {
        assert (x + y)[i] == y[i - |x|];
      }
    }
    RStripUnique(x + y, cs, r);
  }
}
